=== FILE: README.md ===
# itools handler tree, in Dafny

This project models the core of itools' handler layer. That layer is an in-memory tree of
*handlers* over a store of resources. A handler represents one stored resource. It loads
lazily, and it uses its `timestamp` against the resource's modification time (mtime) to
tell whether it is out of date or has unsaved changes. A *folder* handler also keeps a
staging overlay:

- `cache`: backing names, each unresolved or bound to a child handler;
- `added_handlers`: children staged under a name and not yet written;
- `removed_handlers`: names marked for deletion.

The overlay is flushed to the store on save: removals first, then additions. Around the
tree, the project also models:

- the transaction registry that handlers join when changed, with its lock;
- the XML namespace registry;
- path walking and access-control lookup on web nodes;
- the catalog's IDocument folders, with their counted term lists.

Everything is a value: state transformers return the new state, and Python exceptions
become `Result` errors (`Wrappers.Error`). The store's mtimes and bytes, the clock ("now")
and the format parsers are supplied by the caller.

Modules, one per file:

- `Wrappers`: `Option`, `Result` and the error kinds.
- `Store`: the abstract backing store. A map from resource id to a file or folder resource,
  each with `mtime: Option<int>`. A folder resource maps names to child resources.
- `Transactions`: the registry, as a set of handler ids plus a `locked` flag.
- `Handlers`: the base `Handler`: construction, staleness, load, save, `set_changed`,
  copies.
- `Folders`: one folder's overlay. It covers the visible names, `set_handler`/`del_handler`
  staging, single-name resolution and `_save` with its log of store operations.
- `Registry`: handler kinds, and the child-kind dispatch of folders and IDocuments.
- `HandlerTree`: handlers in an arena indexed by identity. Each handler has a non-owning
  parent link and a depth. This module covers path resolution (`get_handler`, `..`), cache
  fill and reload, set/del/has by path, `get_handler_names`, `acquire` and `traverse`.
- `Catalog`: `IndexedField`, `StoredField` and `IDocument`, over a concrete length-prefixed
  codec.
- `Namespaces`: `register_namespace`, lookups by URI and prefix with the default fallback,
  the `XMLNamespace` constructor, element and attribute schema lookup.
- `Web`: `get_object`, `get_names` and `get_access_control` on web nodes.

The commit of the overlay (`Folders.Save`) is a method. Its loops produce a log: the
removed names, then one `AddStep` per added name. Each step may delete the old entry,
save the changed child, and write the new entry. The log's effect on the backing folder's
names is proved separately (`Folders.SaveStoreEffect`).

Modelling choices:

- `_save` deletes an existing entry before re-adding it when the name is a cache key. It
  consults the cache, not the backing store, and so does the model.
- `acquire` fails with LookupError when no handler on the ancestor chain has the name.
- `lock()` on a locked registry fails with `Busy`. The registry's module is not part of
  this model, and the model does not block.

## Model

| member | source | states |
|---|---|---|
| `Handlers.Init` | handlers/Handler.py:49-54 | a handler without a resource gets the default state and no timestamp; one with a resource stays unparsed and never loaded |
| `Handlers.IsOutdated` | handlers/Handler.py:147-158 | never loaded is never out of date; a loaded handler without a resource is an AttributeError; out of date is never in sync (the three-way split is `Handlers.StalenessTrichotomy`) |
| `Handlers.HasChanged` | handlers/Handler.py:161-172 | never loaded is never changed; a loaded handler without a resource is an AttributeError; changed needs an mtime and is never in sync (see `Handlers.StalenessTrichotomy`) |
| `Handlers.StalenessTrichotomy` | handlers/Handler.py:147-172 | a loaded handler whose resource reports an mtime is exactly one of: out of date (mtime later), changed (timestamp later), in sync |
| `Handlers.StalenessWithoutMTime` | handlers/Handler.py:153-170 | with no mtime reported, a loaded handler is out of date and not changed |
| `Handlers.NeverOutdatedAndChanged` | handlers/Handler.py:155-172 | `is_outdated` and `has_changed` never both answer true |
| `Handlers.NeverLoadedIsQuiet` | handlers/Handler.py:147-172 | a never-loaded handler is neither out of date nor changed, whatever the mtime |
| `Handlers.LoadState` | handlers/Handler.py:99-106 | loading parses the bytes and stamps the handler with the resource's mtime; a parse failure propagates; no resource is an AttributeError |
| `Handlers.LoadStateInSync` | handlers/Handler.py:99-106 | right after a load the handler is in sync: neither staleness check fires |
| `Handlers.OutdatedOnlyAfterMTimeAdvances` | handlers/Handler.py:99-158 | after a load at mtime m, the handler is out of date at mtime m' exactly when m' > m |
| `Handlers.EnsureLoaded` | handlers/Handler.py:57-63 | access to the state parses it once: a parsed handler is returned unchanged, an unparsed one is loaded |
| `Handlers.LoadStateFrom` | handlers/Handler.py:109-116 | with no source resource nothing happens and it is an AttributeError; otherwise the handler joins the transaction whether or not parsing succeeds, and on success it holds the parsed state, stamped with "now", and keeps its own resource |
| `Handlers.LoadedFromIsPendingChange` | handlers/Handler.py:109-172 | a handler loaded from another resource is registered for commit and, against its own resource's older mtime, reports changed and not out of date |
| `Handlers.SaveStateAsWritten` | handlers/Handler.py:119-129 | as written: a resourceless handler fails after taking the lock and leaves it held |
| `Handlers.SaveStateLeaksLock` | handlers/Handler.py:119-129 | saving a fresh handler leaves the registry locked, so the next save fails with Busy |
| `Handlers.SaveState` | handlers/Handler.py:119-129 | the lock taken for a save is released on every path, success or failure; a locked registry refuses the save |
| `Handlers.SaveStateToAsWritten` | handlers/Handler.py:132-140 | as written: saving to no resource fails after taking the lock and leaves it held |
| `Handlers.SaveStateToLeaksLock` | handlers/Handler.py:132-140 | `save_state_to(None)` leaves the registry locked, so the next save fails with Busy |
| `Handlers.SaveStateTo` | handlers/Handler.py:132-140 | the lock is released on every path; the save succeeds iff the registry was unlocked, a target is given and serialization succeeds, and then yields the serialized bytes |
| `Handlers.SaveStateIsSaveToOwnResource` | handlers/Handler.py:119-144 | `save_state` is `save_state_to` on the handler's own resource, both as written and corrected |
| `Handlers.SetChanged` | handlers/Handler.py:175-178 | a resourceless handler is untouched; otherwise the timestamp becomes "now" and the handler joins the transaction |
| `Handlers.SetChangedIdempotent` | handlers/Handler.py:175-178 | marking a handler changed twice at the same instant is the same as once |
| `Handlers.SetChangedMakesChanged` | handlers/Handler.py:161-178 | once marked changed after the last mtime, a handler reports changed and not out of date |
| `Handlers.CopyHandler` | handlers/Handler.py:76-92 | a copy loads the original first and has no resource and no timestamp, with the same state |
| `Handlers.CopyIsDetached` | handlers/Handler.py:76-92 | a copy is never out of date or changed, and marking it changed touches nothing |
| `Transactions.Lock` | handlers/Handler.py:122-129 | locking succeeds only on an unlocked registry and keeps its members |
| `Transactions.AddIdempotent` | handlers/Handler.py:175-178 | joining a transaction is idempotent |
| `Transactions.LockReleaseRestores` | handlers/Handler.py:122-129 | lock then release gives back the registry as it was |
| `Store.ChildResource` | handlers/Folder.py:198 | the child resource a backing folder lists under a name, or a ResourceError |
| `Folders.Load` | handlers/Folder.py:59-68 | after a load every backing name is an unresolved cache slot and both overlays are empty |
| `Folders.LoadShowsBackingNames` | handlers/Folder.py:59-68 | right after a load the visible names are exactly the backing names |
| `Folders.HandlerNamesBounds` | handlers/Folder.py:153-158 | `get_handler_names()`: every staged name is visible, every visible name is cached or staged, and a removed name that was not staged again is not visible |
| `Folders.HasHandler` | handlers/Folder.py:161-170 | membership in the visible names; case by case in `Folders.HasHandlerCases` |
| `Folders.HasHandlerCases` | handlers/Folder.py:153-170 | a name is visible iff it is staged, or cached and not removed |
| `Folders.SetEntry` | handlers/Folder.py:243-250 | staging fails with LookupError iff the name is visible, changing nothing; otherwise the name leaves `removed`, maps to the handler in `added`, and joins the visible names |
| `Folders.DelEntry` | handlers/Folder.py:269-276 | deleting fails with LookupError iff the name is not visible; otherwise the name leaves `added`, joins `removed`, and leaves the visible names |
| `Folders.StagingKeepsDisjoint` | handlers/Folder.py:247-276 | one set or del keeps `added` and `removed` disjoint |
| `Folders.EditsKeepDisjoint` | handlers/Folder.py:247-276 | any sequence of sets and dels keeps `added` and `removed` disjoint |
| `Folders.LoadThenEditsDisjoint` | handlers/Folder.py:59-276 | after a load, any sequence of edits leaves the overlays disjoint |
| `Folders.Resolve` | handlers/Folder.py:189-216 | a staged name wins; then a cached, unremoved slot (bound or unresolved); anything else is virtual, and its stale cache slot is dropped |
| `Folders.SetThenResolve` | handlers/Folder.py:189-250 | after staging a handler, looking the name up finds it |
| `Folders.DelThenResolve` | handlers/Folder.py:210-276 | after deleting a name, looking it up goes to virtual resolution |
| `Folders.SetDelSetResolvesLast` | handlers/Folder.py:189-276 | set, del, set of one name resolves to the last handler |
| `Folders.Fill` | handlers/Folder.py:196-204 | filling a slot makes the name visible unless it is removed, and it then resolves to the new handler unless staged or removed |
| `Folders.CommitDeleteAsWritten` | handlers/Folder.py:144-147 | as written: a commit delete raises KeyError exactly when the name has no cache slot |
| `Folders.SetThenDeleteBreaksCommit` | handlers/Folder.py:71-76 | a fresh name that is set then deleted reaches the commit without a cache slot, and the delete raises KeyError |
| `Folders.LookupAfterDeleteBreaksCommit` | handlers/Folder.py:210-214 | looking up a deleted name drops its cache slot, so the commit delete raises KeyError |
| `Folders.CommitRemovalsAsWritten` | handlers/Folder.py:72-76 | as written the removal loop fails only with KeyError; when it succeeds it drops exactly the removed names' cache slots (when it succeeds is `Folders.RemovalsAsWrittenNeedCacheSlots`) |
| `Folders.RemovalsAsWrittenNeedCacheSlots` | handlers/Folder.py:71-76 | the removal loop as written succeeds exactly when every removed name still has its cache slot |
| `Folders.CommitDelete` | handlers/Folder.py:144-147 | the commit delete drops the cache slot if there is one and changes nothing else |
| `Folders.CommitSet` | handlers/Folder.py:136-141 | the commit write creates an unresolved cache slot for the name and changes nothing else |
| `Folders.CommitRemovals` | handlers/Folder.py:72-76 | the removal phase deletes each removed name once, drops their cache slots and empties `removed` |
| `Folders.CommitAdditions` | handlers/Folder.py:77-82 | the addition phase writes each added name once, replacing an existing cache entry, saving a changed child first when the folder does so, and empties `added` |
| `Folders.Save` | handlers/Folder.py:71-82 | after a commit both overlays are empty, the cache keys are the previously visible names with added ones unresolved, each removed name is deleted once and each added name written once |
| `Folders.SaveTwice` | handlers/Folder.py:71-82 | a second commit with no mutation in between issues no store operation and changes nothing |
| `Folders.SaveStoreEffect` | handlers/Folder.py:71-82 | the commit log turns the backing names into (backing − removed) + added |
| `Folders.DeletesBeforeAdds` | handlers/Folder.py:71-82 | all removals come before any write, and a replaced name is deleted before it is written |
| `Folders.SaveKeepsCacheMirror` | handlers/Folder.py:71-147 | if the cache mirrored the backing folder before a commit, it mirrors it after |
| `Registry.ChildKindCharacterized` | catalog/IDocument.py:83-89 | an IDocument child starting with `i` is an IndexedField, one starting with `s` a StoredField, anything else the folder default |
| `Registry.ChildKind` | catalog/IDocument.py:83-89 | the kind an IDocument or another container gives a child; characterised by `Registry.ChildKindCharacterized` |
| `HandlerTree.Instantiate` | handlers/Folder.py:196-204 | a cache miss adds exactly one new handler, whose parent is the folder and whose name is the segment, and fills the slot with it; a failure leaves the tree as it was |
| `HandlerTree.Construct` | handlers/Folder.py:40-53 | a built child is bound to its resource, parent, name and depth with empty overlays; a folder is loaded at construction (stamped with the mtime, showing the backing names), any other handler stays unparsed and unstamped |
| `HandlerTree.Reload` | handlers/Folder.py:206-209 | reloading stamps the handler with the resource's mtime and discards a folder's staged additions and removals; no other handler changes |
| `HandlerTree.Refresh` | handlers/Folder.py:205-209 | a cache hit returns the same handler, reloaded in place when out of date |
| `HandlerTree.GetHandler` | handlers/Folder.py:173-225 | path resolution keeps the arena well formed, only grows it, and returns a handler of the arena |
| `HandlerTree.Continue` | handlers/Folder.py:221-225 | the rest of the path is resolved from the handler the first segment found |
| `HandlerTree.EmptyPathIsSelf` | handlers/Folder.py:178-179 | the empty path is the folder itself |
| `HandlerTree.DotDotAtRootFails` | handlers/Folder.py:181-183 | a leading `..` at the root is a ValueError |
| `HandlerTree.DotDotGoesUp` | handlers/Folder.py:181-184 | a leading `..` resolves the rest of the path from the parent |
| `HandlerTree.PathComposes` | handlers/Folder.py:186-225 | resolving p + q resolves p, then q from where p led, in the tree p's lookup left |
| `HandlerTree.StagedWins` | handlers/Folder.py:189-191 | a staged name resolves to its staged handler and changes nothing |
| `HandlerTree.MissInstantiates` | handlers/Folder.py:193-204 | an unresolved slot yields a new child of this folder, carrying the name, that then fills the slot |
| `HandlerTree.RemovedFallsToVirtual` | handlers/Folder.py:210-216 | a removed, unstaged name fails with LookupError and its cache slot is dropped |
| `HandlerTree.MarkChanged` | handlers/Handler.py:175-178 | `set_changed` in the tree: a resourceless handler is untouched; otherwise it is stamped "now" and joins the transaction |
| `HandlerTree.Stage` | handlers/Folder.py:243-250 | staging in a container succeeds iff it is a folder without that visible name, and the name then resolves to the handler |
| `HandlerTree.SetHandler` | handlers/Folder.py:234-253 | an empty path is an IndexError; on success the container is a folder in which the last segment resolves to the new handler |
| `HandlerTree.DelHandler` | handlers/Folder.py:256-276 | the handler marks itself changed first; an empty path is then an IndexError; on success the last segment is no longer visible in the container |
| `HandlerTree.GetHandlerNames` | handlers/Folder.py:153-158 | the names visible in the folder the path resolves to; a non-folder there is an AttributeError |
| `HandlerTree.HasHandler` | handlers/Folder.py:161-170 | membership of the last segment among the names the container lists; an empty path is an IndexError |
| `HandlerTree.SetThenGet` | handlers/Folder.py:189-250 | staging one segment below a folder succeeds iff the name is not visible, and a lookup then returns the staged handler |
| `HandlerTree.DelThenGet` | handlers/Folder.py:189-276 | deleting one segment succeeds iff the name is visible, and a lookup then fails with LookupError |
| `HandlerTree.Acquire` | handlers/Folder.py:292-295 | acquisition returns a handler of the arena and keeps it well formed |
| `HandlerTree.AcquireMeansProvider` | handlers/Folder.py:292-295 | acquisition is answered by `get_handler(name)` on the nearest ancestor that has the name, and is a LookupError when there is none |
| `HandlerTree.AcquireFindsNearest` | handlers/Folder.py:292-295 | acquisition answers from the nearest folder on the ancestor chain that has the name |
| `HandlerTree.AcquireFailsWhenNoneProvides` | handlers/Folder.py:292-295 | acquisition fails with LookupError when no ancestor has the name |
| `HandlerTree.ProviderLookupIsNotLookupError` | handlers/Folder.py:186-225 | a folder that has the name never answers `get_handler(name)` with LookupError |
| `HandlerTree.AcquireLookupErrorMeansNoProvider` | handlers/Folder.py:292-295 | acquisition fails with LookupError only when no ancestor has the name: with `AcquireFailsWhenNoneProvides`, exactly when |
| `HandlerTree.Traverse` | handlers/Folder.py:281-289 | a traversal is the reference walk for the order of names it took: the handler first, then, for each visible name in turn, the walk below the handler `get_handler(name)` returns; a non-folder yields only itself |
| `HandlerTree.Visit` | handlers/Folder.py:283-289 | one name contributes the reference walk below the handler `get_handler(name)` returns; a failed lookup ends the walk with that error |
| `HandlerTree.VisibleNameHasTurn` | handlers/Folder.py:283-284 | every visible name of a traversed folder has a turn in the order taken |
| `HandlerTree.TurnYieldsHandler` | handlers/Folder.py:281-289 | the trace lists each visible name once, and the handler each name's lookup returns at its turn is among the handlers the traversal yields |
| `HandlerTree.StepYieldsHandler` | handlers/Folder.py:283-289 | the same for a list of names: the k-th name's handler, looked up in the tree the first k names left, is yielded |
| `HandlerTree.StepsExtend` | handlers/Folder.py:283-289 | the walk of the first j names is a prefix of the walk of all of them |
| `Catalog.DecodeString` | catalog/IDocument.py:40-43 | a decoded string and the remaining data are exactly what encoding that string before that data produces |
| `Catalog.DecodeTerms` | catalog/IDocument.py:40-43 | decoding k terms yields exactly k terms |
| `Catalog.TermsRoundTrip` | catalog/IDocument.py:40-61 | decoding the encoded terms, whatever data follows them, gives back the same terms |
| `Catalog.LoadIndexed` | catalog/IDocument.py:34-43 | a loaded IndexedField has as many terms as its count says, all encodable |
| `Catalog.IndexedRoundTrip` | catalog/IDocument.py:34-61 | loading what `to_str` wrote gives back the same count and terms |
| `Catalog.IndexedToStr` | catalog/IDocument.py:58-61 | the count then the terms; `Catalog.IndexedRoundTrip` shows loading it gives the state back |
| `Catalog.IndexedSkeleton` | catalog/IDocument.py:30-31 | the skeleton loads as zero terms |
| `Catalog.AddTerm` | catalog/IDocument.py:46-50 | `add_term` increments the count and appends the term last, keeping count and list in step |
| `Catalog.AddTermMatchesResource` | catalog/IDocument.py:46-61 | the resource `add_term` leaves is `to_str` of the new state, and reloading it gives that state |
| `Catalog.LoadStored` | catalog/IDocument.py:71-73 | a loaded value is encodable and lies within the data after its four-byte length |
| `Catalog.StoredRoundTrip` | catalog/IDocument.py:67-77 | loading what `to_str` wrote gives back the value |
| `Catalog.StoredToStr` | catalog/IDocument.py:76-77 | the length-prefixed value; `Catalog.StoredRoundTrip` shows loading it gives the value back |
| `Catalog.StoredSkeleton` | catalog/IDocument.py:67-68 | the skeleton loads as its default value |
| `Catalog.LoadIDocument` | catalog/IDocument.py:92-94 | an IDocument loads as a folder over its backing names and drops its cached document |
| `Catalog.IDocumentCommitSavesNoChild` | catalog/IDocument.py:98-101 | an IDocument's commit never saves a child first |
| `Catalog.FolderCommitSavesChangedChild` | handlers/Folder.py:136-141 | a Folder's commit saves a changed child before writing it |
| `Namespaces.PlainSchema` | xml/namespaces.py:119-132 | a schema built from a name alone has no URI, no attributes and is not empty |
| `Namespaces.NewNamespace` | xml/namespaces.py:174-189 | construction fails with ValueError iff two element schemas share a name; otherwise every schema is indexed by its name |
| `Namespaces.Register` | xml/namespaces.py:54-70 | the namespace answers for its URI and each extra URI; its prefix now names its URI; other entries are kept; a warning iff the prefix was taken |
| `Namespaces.GetNamespace` | xml/namespaces.py:73-83 | a registered URI gives its namespace, any other the default; only a registry without a default fails |
| `Namespaces.HasNamespace` | xml/namespaces.py:86-89 | whether the URI is registered itself; `Namespaces.HasNamespaceMeansOwnHandler` ties it to the lookup |
| `Namespaces.HasNamespaceMeansOwnHandler` | xml/namespaces.py:78-89 | `has_namespace` tells whether the lookup finds the URI's own namespace or falls back |
| `Namespaces.GetNamespaceByPrefix` | xml/namespaces.py:92-103 | a known prefix resolves through its URI, an unknown one to the default |
| `Namespaces.RegisterKeepsLoaded` | xml/namespaces.py:54-70 | registration never removes the default |
| `Namespaces.RegisteredIsFound` | xml/namespaces.py:54-99 | after registration the URI, each extra URI and the prefix resolve to the namespace |
| `Namespaces.PrefixLastWins` | xml/namespaces.py:62-66 | a second registration under one prefix wins, with a warning |
| `Namespaces.LookupsNeverFail` | xml/namespaces.py:73-103 | once the default is registered, no sequence of registrations makes either lookup fail |
| `Namespaces.GetElement` | xml/namespaces.py:192-219 | the default namespace makes up a plain schema for any name; the others know only their elements, else XMLError |
| `Namespaces.GetElementSchema` | xml/namespaces.py:106-107 | element lookup through the namespace the URI resolves to |
| `Namespaces.IsEmpty` | xml/namespaces.py:110-112 | `is_empty` is the schema's own flag |
| `Namespaces.DefaultElementsAreNotEmpty` | xml/namespaces.py:110-125 | elements of the default namespace are never empty |
| `Namespaces.OwnAttribute` | xml/namespaces.py:135-141 | an attribute in the element's table gives its datatype, any other is an XMLError |
| `Namespaces.AttrDatatype` | xml/namespaces.py:144-153 | an unqualified `xmlns` is a String; an unqualified or own-namespace attribute comes from the element's table; a foreign one is a free attribute of its namespace |
| `Namespaces.GetAttrDatatypeAsWritten` | xml/namespaces.py:144-153 | `get_attr_datatype` with the base free-attribute lookup; `Namespaces.XmlnsDeclarationRejected` shows the `xmlns:` declaration it rejects |
| `Namespaces.GetAttrDatatype` | xml/namespaces.py:144-153 | `get_attr_datatype` with the corrected free-attribute lookup; cases in `Namespaces.AttrDatatype` and `Namespaces.XmlnsDeclarationRejected` |
| `Namespaces.GetFreeAttributeAsWritten` | xml/namespaces.py:202-207 | a free attribute is in the namespace's table, else XMLError; the xmlns override is never reached |
| `Namespaces.GetFreeAttribute` | xml/namespaces.py:237-240 | with the override applied, every attribute of the xmlns namespace is a String |
| `Namespaces.BuiltinFacts` | xml/namespaces.py:222-252 | the built-in registry holds the xml, xmlns and default namespaces, with the xml and xmlns prefixes |
| `Namespaces.Builtin` | xml/namespaces.py:222-252 | the registry the module builds at load time; its contents are `Namespaces.BuiltinFacts` |
| `Namespaces.XmlnsDeclarationRejected` | xml/namespaces.py:237-243 | as written, `xmlns:p` on an element outside that namespace is an XMLError; corrected it is a String |
| `Namespaces.XmlAttributesAreStrings` | xml/namespaces.py:226-233 | `xml:lang`, `xml:space`, `xml:base` and `xml:id` are Strings on any foreign element |
| `Web.GetRoot` | web/base.py:44-45 | the root is the last node of the parent chain |
| `Web.Climb` | web/base.py:52-54 | k steps up reach the k-th ancestor, and fail past the root |
| `Web.Descend` | web/base.py:56-57 | each remaining segment goes through the current node's child table; a missing one is a LookupError |
| `Web.DescendComposes` | web/base.py:56-57 | segments are resolved strictly left to right |
| `Web.GetObject` | web/base.py:40-59 | an empty path is the start node (the root when absolute); otherwise climb once per leading `..`, then descend the rest |
| `Web.GetObjectAsWritten` | web/base.py:40-57 | as written, a found object is a node of the site; `Web.ParentPathFails` and `Web.GetObjectAgrees` relate it to the corrected reading |
| `Web.DotsAsWritten` | web/base.py:52-57 | as written, a path made only of `..` segments always fails, and a success lies in the site |
| `Web.DotsReachAncestor` | web/base.py:52-54 | k `..` segments name the k-th ancestor |
| `Web.DotDotStepsUp` | web/base.py:52-54 | each leading `..` moves exactly one step up |
| `Web.ParentPathFails` | web/base.py:49-54 | as written, the path `..` is an IndexError; corrected it is the parent |
| `Web.DotsAsWrittenAgree` | web/base.py:52-57 | the `..` loop as written agrees with the corrected one when a segment other than `..` follows |
| `Web.GetObjectAgrees` | web/base.py:40-59 | the two readings of `get_object` differ only on paths made entirely of `..` segments |
| `Web.GetNames` | web/base.py:62-64 | the names below the object the path resolves to, failing as the path does |
| `Web.GetAccessControl` | web/base.py:105-112 | the first access-control node from the node up to the root, None iff there is none; any chain that reaches a Root gets one |

## Left out

- Resource I/O (`open`, `close`, `read`, `write`, `append`, `get_mtime`) is replaced by
  values: the store gives mtimes and child resources, and callers pass bytes.
- The `IO` codec is not part of this model. It is stood in by a concrete big-endian 32-bit
  count and a length-prefixed string. Its round trips are proved, not assumed.
- The clock is the `now` parameter, and timestamps are integers.
- `deepcopy` in `copy_handler` copies the state value.
- The `__getattr__` load on first access becomes the explicit `Handlers.EnsureLoaded`.
- The `on_set_handler` and `on_del_handler` hooks are left out, and so are the warnings
  that fallback namespace lookups issue.
- `Folder.__init__` without a resource (a memory folder populated from the skeleton) is not
  modelled. Folders in the tree are always bound to a backing resource.
- `_get_virtual_handler` is modelled as the base version, which raises LookupError.
  Subclasses that make up virtual handlers are not modelled.
- `Handler.build_handler` and its registry are not part of this model. A child gets the
  generic Folder or File kind by resource type, or a field kind inside an IDocument.
- The tree-node base class (`Handler.acquire`, `get_root`) is modelled only through
  `HandlerTree.Acquire`, where a handler that does not have the name asks its parent and
  the root fails, and `Web.GetRoot`, the end of the parent chain.
- Paths are sequences of segment names: `uri.Path` parsing, and `.` meaning the empty path,
  are taken as given.
  A segment is taken to compare equal to its name: handlers/Folder.py:181 compares
  `path[0].name == '..'`, while web/base.py:52 compares `path[0] == '..'`, which the
  model reads the same way.
- `HandlerTree.GetHandlerNames`: returns a set. The source returns a list, which repeats a
  name that stays in the cache after a removal and is then staged again.
  On a non-folder the same AttributeError stands for the RuntimeError described under
  `HandlerTree.GetHandler` below.
- `HandlerTree.SetHandler`: the handler being added must already be a node of the arena.
  Allocating a detached handler in the arena is left to the caller.
- `HandlerTree.Traverse`: `fuel` bounds how deep folders are expanded, because a backing
  store may list a folder inside itself. The order of names within a folder is not fixed:
  the ghost trace records the order taken, and the result is the reference walk for it.
  An error ends the traversal, where the generator would already have yielded a prefix.
  The reference walk visits each visible name once. The source's `get_handler_names()`
  lists a name twice when it is still a cache key after being deleted and staged again, and
  `traverse()` then yields that handler, and everything below it, twice.
- `HandlerTree.Refresh`: only the timestamp and a folder's names are reloaded. A file
  handler's parsed state is not kept in the tree; `Handlers` and `Catalog` model that.
- `Folders.Save`: the commit's store operations form a log, and only their effect on the
  backing folder's names is modelled. The recursive `save()` of a changed child is one
  `SaveChild` entry. The folder's `timestamp` refresh after each write is not modelled.
- `Folders.CommitRemovals`: models the corrected `_del_handler`, which tolerates a name
  with no cache slot. The KeyError of the code as written is in
  `Folders.CommitRemovalsAsWritten` and `Folders.RemovalsAsWrittenNeedCacheSlots`.
- `Folders.Save`: its promises hold for the corrected commit only. As written, a removed or
  replaced name without a cache slot aborts the commit with KeyError half-way.
- `Folders.CommitDeleteAsWritten`: models the cache half of `_del_handler`. The
  `del_resource(name)` before the failing `del self.cache[name]` has already removed the
  name from the store when the KeyError is raised, and that store effect is not modelled.
- `Folders.CommitAdditions`: `changed` stands for each child's `has_changed()`, which reads
  the child's resource mtime and can itself raise. Such a failure is not modelled, and
  neither is the recursive save failing.
- `HandlerTree.GetHandler`: a non-folder answers a lookup with AttributeError. In the
  source the missing method reaches `Handler.__getattr__`, whose error message reads
  `self.__class`. That name is mangled to an attribute the handler does not have, so the
  lookup recurses until Python raises RuntimeError. The model keeps the AttributeError the
  code evidently means.
- `HandlerTree.EmptyPathIsSelf`: the same AttributeError stands for that RuntimeError.
- `HandlerTree.Stage`: the same AttributeError stands for that RuntimeError.
- `HandlerTree.DelHandler`: the same AttributeError stands for that RuntimeError.
- `Catalog.LoadIDocument`: `IDocument._load_state` calls `Folder._load_state`, which
  handlers/Folder.py does not define (Folder loads through `_load`). The model reads the
  call as the folder load.
- `Catalog.IDocumentCommitSavesNoChild`: `IDocument._set_handler` writes
  `self.state.cache`, while Folder keeps its cache in `self.cache`. The model reads both as
  the folder's one cache.
- `get_handlers` is outside this model. It is a generator that passes the path to the
  handler it has already resolved.
- `Catalog.AddTerm`: requires the new count to fit in 32 bits, because the codec's
  behaviour on overflow is not part of this model.
  It also leaves out the final `self.timestamp = self.resource.get_mtime()`: the field is
  re-stamped in sync with the file it has just written, but the model updates only the
  parsed state.
- `Catalog.WriteAtStart`: reads `resource.write` as an overwrite from the start without
  truncation, the reading under which `add_term` keeps the file consistent.
- Web nodes' `_get_object` and `_get_names` come from subclasses in the source. Here they
  are a table of named children. The HTTP methods, `get_method` and the `Root` hooks are
  out.
- `is_translatable`, `translate_content` and the other `ElementSchema` keyword attributes
  are left out, except `class_uri`, `attributes` and `is_empty`.

## Findings

| source | as written | input that shows it | evidently intended | confidence | as-written member | corrected member |
|---|---|---|---|---|---|---|
| handlers/Folder.py:144-147 | `_del_handler` runs `del self.cache[name]` for every removed name at commit, and raises KeyError when the name has no cache slot | load a folder without `n`, `set_handler(n, h)`, `del_handler(n)`, `save()`; or `del_handler(n)` on a backing name, `get_handler(n)`, `save()` | the commit deletes what it can and tolerates names that never reached the cache | high, not executed | `Folders.CommitDeleteAsWritten` | `Folders.CommitDelete` |
| handlers/Handler.py:119-129 | `save_state` takes the lock and then calls `resource.open()` outside the `try`, so a failure there never releases the lock | `save_state()` on a handler built without a resource: `None.open()` raises and the registry stays locked | the lock is released on every path out of a save | high, not executed | `Handlers.SaveStateAsWritten` | `Handlers.SaveState` |
| handlers/Handler.py:132-140 | `save_state_to` has the same shape: the lock is taken and `resource.open()` is called outside the `try` | `save_state_to(None)`: `None.open()` raises and the registry stays locked | the lock is released on every path out of a save | high, not executed | `Handlers.SaveStateToAsWritten` | `Handlers.SaveStateTo` |
| web/base.py:52-54 | `while path[0] == '..'` reads past the end of a path made only of `..` segments | `get_object('..')` on any node with a parent raises IndexError, assuming a path segment compares equal to the string `'..'` as the loop expects | the path `..` names the parent | medium, not executed | `Web.ParentPathFails` | `Web.GetObject` |
| xml/namespaces.py:237-240 | `XMLNSNamespace` overrides `get_free_datatype`, which nothing calls, instead of `get_free_attribute` | `get_attr_datatype(xmlns_uri, 'p')` on an element of another namespace raises XMLError | `xmlns:` attributes are Strings | medium, not executed | `Namespaces.XmlnsDeclarationRejected` | `Namespaces.GetFreeAttribute` |

=== FILE: catalog.dfy ===
/** The catalog's per-document storage: an IDocument is a folder whose
    children are IndexedFields (a counted list of terms) and StoredFields
    (one value).

    The `IO` codec module is not part of this model. It is stood in by a
    concrete one: a 32-bit count as four big-endian bytes, and a string as
    its 32-bit length followed by its bytes. The properties below only rely
    on this codec inverting itself, which is proved here rather than assumed.
 */
module Catalog {
  import opened Wrappers
  import opened Store
  import Folders

  const Uint32Limit: nat := 0x1_0000_0000

  // ------------------------------------------------------------------
  // Codec
  // ------------------------------------------------------------------

  function EncodeUint32(n: nat): (b: Bytes)
    requires n < Uint32Limit
    ensures |b| == 4
  {
    var n1 := n / 256;
    var n2 := n1 / 256;
    [(n2 / 256) as Byte, (n2 % 256) as Byte, (n1 % 256) as Byte, (n % 256) as Byte]
  }

  /** Decoding anything but exactly four bytes is a parse error (a short
      read at the end of the resource). */
  function DecodeUint32(b: Bytes): (r: Result<nat>)
    ensures r.Ok? <==> |b| == 4
    ensures r.Ok? ==> r.value < Uint32Limit
  {
    if |b| != 4 then Err(ParseError)
    else Ok(((b[0] as nat * 256 + b[1] as nat) * 256 + b[2] as nat) * 256 + b[3] as nat)
  }

  lemma Uint32RoundTrip(n: nat)
    requires n < Uint32Limit
    ensures DecodeUint32(EncodeUint32(n)) == Ok(n)
  {
    var n1 := n / 256;
    var n2 := n1 / 256;
    assert n2 / 256 * 256 + n2 % 256 == n2;
    assert n2 * 256 + n1 % 256 == n1;
    assert n1 * 256 + n % 256 == n;
  }

  /** A string is encodable when its length fits the 32-bit prefix. */
  predicate Encodable(s: Bytes) {
    |s| < Uint32Limit
  }

  function EncodeString(s: Bytes): (b: Bytes)
    requires Encodable(s)
    ensures |b| == 4 + |s|
  {
    EncodeUint32(|s|) + s
  }

  /** `decode_string(data)`: the string and the rest of the data. */
  function DecodeString(data: Bytes): (r: Result<(Bytes, Bytes)>)
    ensures r.Ok? ==> |r.value.0| + |r.value.1| + 4 == |data|
    ensures r.Ok? ==> Encodable(r.value.0) && data == EncodeString(r.value.0) + r.value.1
  {
    if |data| < 4 then Err(ParseError)
    else
      var n :- DecodeUint32(data[..4]);
      if |data| - 4 < n then Err(ParseError)
      else
        Uint32RoundTripBytes(data[..4]);
        Ok((data[4..4 + n], data[4 + n..]))
  }

  /** The other direction of the 32-bit round trip: four bytes come back
      from their decoded value. */
  lemma Uint32RoundTripBytes(b: Bytes)
    requires |b| == 4
    ensures DecodeUint32(b).Ok? && EncodeUint32(DecodeUint32(b).value) == b
  {
    var n := DecodeUint32(b).value;
    var x := (b[0] as nat * 256 + b[1] as nat) * 256 + b[2] as nat;
    var y := b[0] as nat * 256 + b[1] as nat;
    assert n / 256 == x && n % 256 == b[3] as nat;
    assert x / 256 == y && x % 256 == b[2] as nat;
    assert y / 256 == b[0] as nat && y % 256 == b[1] as nat;
  }

  lemma StringRoundTrip(s: Bytes, rest: Bytes)
    requires Encodable(s)
    ensures DecodeString(EncodeString(s) + rest) == Ok((s, rest))
  {
    var data := EncodeString(s) + rest;
    assert data[..4] == EncodeUint32(|s|);
    Uint32RoundTrip(|s|);
    assert data[4..4 + |s|] == s;
    assert data[4 + |s|..] == rest;
  }

  // ------------------------------------------------------------------
  // IndexedField
  // ------------------------------------------------------------------

  datatype IndexedState = IndexedState(numberOfTerms: nat, terms: seq<Bytes>)

  /** The count agrees with the list, and everything fits the codec. */
  predicate IndexedWf(s: IndexedState) {
    && s.numberOfTerms == |s.terms|
    && s.numberOfTerms < Uint32Limit
    && forall i :: 0 <= i < |s.terms| ==> Encodable(s.terms[i])
  }

  /** Decodes `k` strings one after the other; trailing data is ignored. */
  function DecodeTerms(data: Bytes, k: nat): (r: Result<seq<Bytes>>)
    ensures r.Ok? ==> |r.value| == k
    decreases k
  {
    if k == 0 then Ok([])
    else
      var (term, rest) :- DecodeString(data);
      var more :- DecodeTerms(rest, k - 1);
      Ok([term] + more)
  }

  /** `IndexedField._load_state`: `read(4)` for the count (fewer bytes when
      the resource is shorter), then the rest, decoded as that many terms. */
  function LoadIndexed(data: Bytes): (r: Result<IndexedState>)
    ensures r.Ok? ==> IndexedWf(r.value)
  {
    var head := if |data| < 4 then data else data[..4];
    var tail := if |data| < 4 then [] else data[4..];
    var count :- DecodeUint32(head);
    var terms :- DecodeTerms(tail, count);
    TermsEncodable(tail, count);
    Ok(IndexedState(count, terms))
  }

  lemma {:induction false} TermsEncodable(data: Bytes, k: nat)
    requires DecodeTerms(data, k).Ok?
    ensures forall i :: 0 <= i < k ==> Encodable(DecodeTerms(data, k).value[i])
    decreases k
  {
    if k > 0 {
      var (term, rest) := DecodeString(data).value;
      TermsEncodable(rest, k - 1);
      assert |term| + 4 <= |data|;
      Uint32RoundTripBytes(data[..4]);
    }
  }

  function EncodeTerms(terms: seq<Bytes>): Bytes
    requires forall i :: 0 <= i < |terms| ==> Encodable(terms[i])
  {
    if |terms| == 0 then [] else EncodeString(terms[0]) + EncodeTerms(terms[1..])
  }

  /** `IndexedField.to_str`: the encoded count, then each term in order. */
  function IndexedToStr(s: IndexedState): Bytes
    requires IndexedWf(s)
  {
    EncodeUint32(s.numberOfTerms) + EncodeTerms(s.terms)
  }

  lemma {:induction false} TermsRoundTrip(terms: seq<Bytes>, rest: Bytes)
    requires forall i :: 0 <= i < |terms| ==> Encodable(terms[i])
    ensures DecodeTerms(EncodeTerms(terms) + rest, |terms|) == Ok(terms)
    decreases |terms|
  {
    if |terms| > 0 {
      var tail := EncodeTerms(terms[1..]) + rest;
      assert EncodeTerms(terms) + rest == EncodeString(terms[0]) + tail;
      StringRoundTrip(terms[0], tail);
      TermsRoundTrip(terms[1..], rest);
      assert [terms[0]] + terms[1..] == terms;
    }
  }

  /** Loading what `to_str` wrote gives back the same count and terms. */
  lemma {:induction false} IndexedRoundTrip(s: IndexedState)
    requires IndexedWf(s)
    ensures LoadIndexed(IndexedToStr(s)) == Ok(s)
  {
    var data := IndexedToStr(s);
    assert data[..4] == EncodeUint32(s.numberOfTerms);
    assert data[4..] == EncodeTerms(s.terms) + [];
    Uint32RoundTrip(s.numberOfTerms);
    TermsRoundTrip(s.terms, []);
  }

  /** `IndexedField.get_skeleton`: a zero count, which loads as no terms. */
  function IndexedSkeleton(): (b: Bytes)
    ensures LoadIndexed(b) == Ok(IndexedState(0, []))
  {
    Uint32RoundTrip(0);
    EncodeUint32(0)
  }

  /** `add_term(term)` on the parsed state. The count must stay encodable. */
  function AddTerm(s: IndexedState, term: Bytes): (r: IndexedState)
    requires IndexedWf(s) && s.numberOfTerms + 1 < Uint32Limit && Encodable(term)
    ensures IndexedWf(r)
    ensures r.numberOfTerms == s.numberOfTerms + 1
    ensures |r.terms| == |s.terms| + 1 && r.terms[..|s.terms|] == s.terms && r.terms[|s.terms|] == term
  {
    IndexedState(s.numberOfTerms + 1, s.terms + [term])
  }

  /** `resource.write(b)` on a freshly opened resource overwrites from the
      start without truncating (the resource layer is not part of this
      model; this is the reading under which `add_term` keeps the file
      consistent). */
  function WriteAtStart(before: Bytes, b: Bytes): (r: Bytes)
    ensures |r| == if |b| <= |before| then |before| else |b|
    ensures r[..|b|] == b
  {
    if |b| <= |before| then b + before[|b|..] else b
  }

  lemma {:induction false} EncodeTermsAppend(terms: seq<Bytes>, term: Bytes)
    requires forall i :: 0 <= i < |terms| ==> Encodable(terms[i])
    requires Encodable(term)
    ensures EncodeTerms(terms + [term]) == EncodeTerms(terms) + EncodeString(term)
    decreases |terms|
  {
    if |terms| == 0 {
      assert terms + [term] == [term];
    } else {
      assert (terms + [term])[1..] == terms[1..] + [term];
      EncodeTermsAppend(terms[1..], term);
    }
  }

  /** What `add_term` leaves in the resource (the new count written over
      the old one, then the term appended) is exactly `to_str` of the new
      state, so a reload gives back the state `add_term` built. */
  lemma AddTermMatchesResource(s: IndexedState, term: Bytes)
    requires IndexedWf(s) && s.numberOfTerms + 1 < Uint32Limit && Encodable(term)
    ensures WriteAtStart(IndexedToStr(s), EncodeUint32(s.numberOfTerms + 1)) + EncodeString(term)
            == IndexedToStr(AddTerm(s, term))
    ensures LoadIndexed(WriteAtStart(IndexedToStr(s), EncodeUint32(s.numberOfTerms + 1)) + EncodeString(term))
            == Ok(AddTerm(s, term))
  {
    var head := EncodeUint32(s.numberOfTerms + 1);
    assert WriteAtStart(IndexedToStr(s), head) == head + EncodeTerms(s.terms) by {
      assert IndexedToStr(s)[|head|..] == EncodeTerms(s.terms);
    }
    EncodeTermsAppend(s.terms, term);
    assert head + EncodeTerms(s.terms) + EncodeString(term) == head + EncodeTerms(s.terms + [term]);
    IndexedRoundTrip(AddTerm(s, term));
  }

  // ------------------------------------------------------------------
  // StoredField
  // ------------------------------------------------------------------

  /** `StoredField._load_state`: the first string of the data. */
  function LoadStored(data: Bytes): (r: Result<Bytes>)
    ensures r.Ok? ==> Encodable(r.value) && |r.value| + 4 <= |data|
  {
    var (value, _) :- DecodeString(data);
    Uint32RoundTripBytes(data[..4]);
    Ok(value)
  }

  /** `StoredField.to_str`. */
  function StoredToStr(value: Bytes): Bytes
    requires Encodable(value)
  {
    EncodeString(value)
  }

  lemma StoredRoundTrip(value: Bytes)
    requires Encodable(value)
    ensures LoadStored(StoredToStr(value)) == Ok(value)
  {
    StringRoundTrip(value, []);
    assert StoredToStr(value) + [] == StoredToStr(value);
  }

  /** `StoredField.get_skeleton(data)`: the encoded default value. */
  function StoredSkeleton(value: Bytes): (b: Bytes)
    requires Encodable(value)
    ensures LoadStored(b) == Ok(value)
  {
    StoredRoundTrip(value);
    StoredToStr(value)
  }

  // ------------------------------------------------------------------
  // IDocument
  // ------------------------------------------------------------------

  /** An IDocument's folder state plus its cached `document` object. */
  datatype IDocumentState<D> = IDocumentState(folder: Folders.Folder, document: Option<D>)

  /** `IDocument._load_state`: the Folder load, then the cached document is
      dropped. */
  function LoadIDocument<D>(names: set<Name>): (r: IDocumentState<D>)
    ensures Folders.HandlerNames(r.folder) == names
    ensures r.folder.added == map[] && r.folder.removed == {}
    ensures r.document.None?
  {
    IDocumentState(Folders.Load(names), None)
  }

  /** `IDocument._set_handler` never saves the child first, unlike the
      Folder version: a commit of an IDocument issues no `SaveChild`, even
      for changed children. */
  lemma {:induction false} IDocumentCommitSavesNoChild(f: Folders.Folder, changed: set<HandlerId>,
                                                      removals: seq<Name>, additions: seq<Folders.AddStep>)
    requires forall i :: 0 <= i < |additions| ==>
               additions[i].name in f.added && additions[i] == Folders.StepFor(f, additions[i].name, false, changed)
    ensures forall op :: op in Folders.Log(removals, additions) ==> !op.SaveChild?
    decreases |additions|
  {
    if |additions| > 0 {
      IDocumentCommitSavesNoChild(f, changed, removals, additions[1..]);
      assert Folders.Log(removals, additions)
          == Folders.DeleteOps(removals) + Folders.StepOps(additions[0]) + Folders.AddOps(additions[1..]);
    }
  }

  /** The Folder version does save a changed child before writing it. */
  lemma FolderCommitSavesChangedChild(f: Folders.Folder, changed: set<HandlerId>, n: Name)
    requires n in f.added && f.added[n] in changed
    ensures Folders.SaveChild(f.added[n]) in Folders.StepOps(Folders.StepFor(f, n, true, changed))
  {
  }
}

=== FILE: folders.dfy ===
/** The staging state of one folder handler: the lazy cache of children
    (a slot is `None` until the child is instantiated), the `added` overlay
    of handlers set but not yet saved, and the `removed` overlay of names
    deleted but not yet saved. Handlers are referred to by identity.

    This module holds the single-folder logic: what is visible, how one
    name resolves against the overlays, the staging operations and the
    commit. Walking paths across folders is in `HandlerTree`.
 */
module Folders {
  import opened Wrappers
  import opened Store

  datatype Folder = Folder(cache: map<Name, Option<HandlerId>>, added: map<Name, HandlerId>, removed: set<Name>)

  /** `_load`: one unresolved cache slot per backing name, empty overlays. */
  function Load(names: set<Name>): (f: Folder)
    ensures f.cache.Keys == names
    ensures forall n :: n in f.cache ==> f.cache[n] == None
    ensures f.added == map[] && f.removed == {}
  {
    Folder(map n | n in names :: None, map[], {})
  }

  /** `get_handler_names()` of this folder: the cached names not removed,
      plus the added ones. */
  function HandlerNames(f: Folder): set<Name> {
    (f.cache.Keys - f.removed) + f.added.Keys
  }

  /** `has_handler(name)` for a name of this folder. */
  predicate HasHandler(f: Folder, name: Name) {
    name in HandlerNames(f)
  }

  /** Independent statement of visibility, one name at a time: a name is
      visible exactly when it is staged, or cached and not removed. */
  lemma HasHandlerCases(f: Folder, name: Name)
    ensures HasHandler(f, name) <==> name in f.added || (name in f.cache && name !in f.removed)
  {
  }

  /** Every staged name is visible, every visible name is cached or
      staged, and a removed name that was not staged again is hidden. */
  lemma HandlerNamesBounds(f: Folder)
    ensures f.added.Keys <= HandlerNames(f) <= f.cache.Keys + f.added.Keys
    ensures HandlerNames(f) * (f.removed - f.added.Keys) == {}
  {
  }

  /** Right after a load the visible names are the backing names. */
  lemma LoadShowsBackingNames(names: set<Name>)
    ensures HandlerNames(Load(names)) == names
  {
  }

  /** The overlays never claim the same name. */
  predicate Disjoint(f: Folder) {
    f.added.Keys !! f.removed
  }

  /** The staging part of `set_handler(name, h)`: refused when the name is
      already visible; otherwise the name leaves `removed` and `h` is staged. */
  function SetEntry(f: Folder, name: Name, h: HandlerId): (r: Result<Folder>)
    ensures r.Err? <==> HasHandler(f, name)
    ensures r.Err? ==> r.error == LookupError
    ensures r.Ok? ==> r.value.cache == f.cache
    ensures r.Ok? ==> r.value.added == f.added[name := h] && r.value.removed == f.removed - {name}
    ensures r.Ok? ==> HandlerNames(r.value) == HandlerNames(f) + {name}
  {
    if HasHandler(f, name) then Err(LookupError)
    else Ok(Folder(f.cache, f.added[name := h], f.removed - {name}))
  }

  /** The staging part of `del_handler(name)`: refused when the name is not
      visible; otherwise it leaves `added` and enters `removed`. */
  function DelEntry(f: Folder, name: Name): (r: Result<Folder>)
    ensures r.Err? <==> !HasHandler(f, name)
    ensures r.Err? ==> r.error == LookupError
    ensures r.Ok? ==> r.value.cache == f.cache
    ensures r.Ok? ==> r.value.added == f.added - {name} && r.value.removed == f.removed + {name}
    ensures r.Ok? ==> HandlerNames(r.value) == HandlerNames(f) - {name}
  {
    if !HasHandler(f, name) then Err(LookupError)
    else Ok(Folder(f.cache, f.added - {name}, f.removed + {name}))
  }

  /** Neither staging operation can make the overlays overlap. */
  lemma StagingKeepsDisjoint(f: Folder, name: Name, h: HandlerId)
    requires Disjoint(f)
    ensures SetEntry(f, name, h).Ok? ==> Disjoint(SetEntry(f, name, h).value)
    ensures DelEntry(f, name).Ok? ==> Disjoint(DelEntry(f, name).value)
  {
  }

  /** A load starts disjoint, and any sequence of staging calls keeps it so. */
  datatype Edit = SetOp(name: Name, handler: HandlerId) | DelOp(name: Name)

  /** One staging call; a refused call leaves the folder as it was (the
      caller caught the error). */
  function ApplyEdit(f: Folder, e: Edit): Folder {
    var r := match e
      case SetOp(n, h) => SetEntry(f, n, h)
      case DelOp(n) => DelEntry(f, n);
    if r.Ok? then r.value else f
  }

  function ApplyEdits(f: Folder, edits: seq<Edit>): Folder
    decreases |edits|
  {
    if |edits| == 0 then f else ApplyEdits(ApplyEdit(f, edits[0]), edits[1..])
  }

  lemma {:induction false} EditsKeepDisjoint(f: Folder, edits: seq<Edit>)
    requires Disjoint(f)
    ensures Disjoint(ApplyEdits(f, edits))
    decreases |edits|
  {
    if |edits| > 0 {
      match edits[0] {
        case SetOp(n, h) => StagingKeepsDisjoint(f, n, h);
        case DelOp(n) => StagingKeepsDisjoint(f, n, 0);
      }
      EditsKeepDisjoint(ApplyEdit(f, edits[0]), edits[1..]);
    }
  }

  lemma LoadThenEditsDisjoint(names: set<Name>, edits: seq<Edit>)
    ensures Disjoint(ApplyEdits(Load(names), edits))
  {
    EditsKeepDisjoint(Load(names), edits);
  }

  /** What looking one name up in this folder finds. */
  datatype Outcome =
    | Staged(handler: HandlerId)   // from the added overlay
    | Cached(handler: HandlerId)   // a resolved cache slot
    | Unresolved                   // a cache slot still to instantiate
    | Virtual                      // not visible: virtual-handler resolution

  datatype Resolution = Resolution(folder: Folder, outcome: Outcome)

  /** One step of `get_handler`: the added overlay wins, then a cache slot
      that is not removed; anything else goes to virtual resolution, and a
      cache slot it still has is dropped on the way. */
  function Resolve(f: Folder, name: Name): (r: Resolution)
    ensures r.outcome.Staged? <==> name in f.added
    ensures r.outcome.Staged? ==> r.outcome.handler == f.added[name]
    ensures r.outcome.Virtual? <==> !HasHandler(f, name)
    ensures r.outcome.Cached? ==> name in f.cache && f.cache[name] == Some(r.outcome.handler)
    ensures r.outcome.Unresolved? ==> name in f.cache && f.cache[name] == None && name !in f.added
    ensures !r.outcome.Virtual? ==> r.folder == f
    ensures r.outcome.Virtual? ==> r.folder == f.(cache := f.cache - {name})
    ensures HandlerNames(r.folder) == HandlerNames(f)
  {
    if name in f.added then Resolution(f, Staged(f.added[name]))
    else if name in f.cache && name !in f.removed then
      match f.cache[name]
      case Some(h) => Resolution(f, Cached(h))
      case None => Resolution(f, Unresolved)
    else Resolution(f.(cache := f.cache - {name}), Virtual)
  }

  /** `set_handler` then lookup finds the staged handler. */
  lemma SetThenResolve(f: Folder, name: Name, h: HandlerId)
    requires SetEntry(f, name, h).Ok?
    ensures Resolve(SetEntry(f, name, h).value, name).outcome == Staged(h)
  {
  }

  /** `del_handler` then lookup finds nothing, though the cache and the
      backing store still know the name. */
  lemma DelThenResolve(f: Folder, name: Name)
    requires DelEntry(f, name).Ok?
    ensures Resolve(DelEntry(f, name).value, name).outcome == Virtual
  {
  }

  /** Set, delete, set again: the last handler wins. */
  lemma SetDelSetResolvesLast(f: Folder, name: Name, h1: HandlerId, h2: HandlerId)
    requires SetEntry(f, name, h1).Ok?
    ensures DelEntry(SetEntry(f, name, h1).value, name).Ok?
    ensures SetEntry(DelEntry(SetEntry(f, name, h1).value, name).value, name, h2).Ok?
    ensures Resolve(SetEntry(DelEntry(SetEntry(f, name, h1).value, name).value, name, h2).value, name).outcome
            == Staged(h2)
  {
  }

  /** Fills a cache slot with the handler just instantiated for it. */
  function Fill(f: Folder, name: Name, h: HandlerId): (g: Folder)
    ensures HandlerNames(g) == HandlerNames(f) + ({name} - f.removed)
    ensures Resolve(g, name).outcome == (if name in f.added then Staged(f.added[name])
                                         else if name in f.removed then Virtual else Cached(h))
  {
    f.(cache := f.cache[name := Some(h)])
  }

  // ------------------------------------------------------------------
  // Commit
  // ------------------------------------------------------------------

  /** A backing-store operation issued by a commit. */
  datatype StoreOp =
    | DeleteResource(name: Name)               // `resource.del_resource(name)`
    | SaveChild(handler: HandlerId)            // `handler.save()` of a changed child
    | SetResource(name: Name, handler: HandlerId) // `resource.set_resource(name, handler.resource)`

  /** `_del_handler(name)` as written: `del self.cache[name]` raises when the
      slot is missing. */
  function CommitDeleteAsWritten(f: Folder, name: Name): (r: Result<Folder>)
    ensures r.Ok? <==> name in f.cache
    ensures r.Err? ==> r.error == KeyError
    ensures r.Ok? ==> r.value == CommitDelete(f, name)
  {
    if name in f.cache then Ok(f.(cache := f.cache - {name})) else Err(KeyError)
  }

  /** `_del_handler(name)`, tolerating a name with no cache slot: the name
      was set then deleted without ever reaching the store, or its slot was
      dropped by a lookup after it was deleted. */
  function CommitDelete(f: Folder, name: Name): (g: Folder)
    ensures g.cache.Keys == f.cache.Keys - {name}
    ensures forall n :: n in g.cache ==> g.cache[n] == f.cache[n]
    ensures g.added == f.added && g.removed == f.removed
  {
    f.(cache := f.cache - {name})
  }

  /** A name set and then deleted before any commit sits in `removed` with
      no cache slot, so the commit's `_del_handler` as written raises. */
  lemma SetThenDeleteBreaksCommit(names: set<Name>, n: Name, h: HandlerId)
    requires n !in names
    ensures SetEntry(Load(names), n, h).Ok?
    ensures DelEntry(SetEntry(Load(names), n, h).value, n).Ok?
    ensures n in DelEntry(SetEntry(Load(names), n, h).value, n).value.removed
    ensures CommitDeleteAsWritten(DelEntry(SetEntry(Load(names), n, h).value, n).value, n) == Err(KeyError)
  {
  }

  /** Looking up a deleted name drops its cache slot, after which the
      commit's `_del_handler` as written raises for it too. */
  lemma LookupAfterDeleteBreaksCommit(names: set<Name>, n: Name)
    requires n in names
    ensures DelEntry(Load(names), n).Ok?
    ensures Resolve(DelEntry(Load(names), n).value, n).outcome == Virtual
    ensures n in Resolve(DelEntry(Load(names), n).value, n).folder.removed
    ensures CommitDeleteAsWritten(Resolve(DelEntry(Load(names), n).value, n).folder, n) == Err(KeyError)
  {
  }

  /** The removal loop of `_save` as written, over the removed names in
      the order it visits them: the first name without a cache slot aborts
      the commit. */
  function CommitRemovalsAsWritten(f: Folder, removals: seq<Name>): (r: Result<Folder>)
    ensures r.Err? ==> r.error == KeyError
    ensures r.Ok? ==> r.value.added == f.added && r.value.removed == f.removed
    ensures r.Ok? ==> r.value.cache.Keys == f.cache.Keys - set n | n in removals
    decreases |removals|
  {
    if |removals| == 0 then Ok(f)
    else
      var g :- CommitDeleteAsWritten(f, removals[0]);
      CommitRemovalsAsWritten(g, removals[1..])
  }

  /** The precondition the removal loop as written needs: every removed
      name still has its cache slot. With it the loop cannot raise; without
      it, it does. */
  lemma {:induction false} RemovalsAsWrittenNeedCacheSlots(f: Folder, removals: seq<Name>)
    requires forall i, j :: 0 <= i < j < |removals| ==> removals[i] != removals[j]
    ensures CommitRemovalsAsWritten(f, removals).Ok? <==> forall i :: 0 <= i < |removals| ==> removals[i] in f.cache
    decreases |removals|
  {
    if |removals| > 0 && removals[0] in f.cache {
      var g := f.(cache := f.cache - {removals[0]});
      RemovalsAsWrittenNeedCacheSlots(g, removals[1..]);
      assert forall i :: 0 <= i < |removals[1..]| ==> (removals[1..][i] in g.cache <==> removals[1..][i] in f.cache);
    }
  }

  /** The cache part of `_set_handler(name, h)`: the slot becomes unresolved,
      so the next lookup instantiates a fresh handler over the stored child. */
  function CommitSet(f: Folder, name: Name): (g: Folder)
    ensures g.cache.Keys == f.cache.Keys + {name} && g.cache[name] == None
    ensures forall n :: n in g.cache && n != name ==> g.cache[n] == f.cache[n]
    ensures g.added == f.added && g.removed == f.removed
  {
    f.(cache := f.cache[name := None])
  }

  /** The store operations one added handler turns into during a commit. */
  datatype AddStep = AddStep(name: Name, handler: HandlerId, replace: bool, saveFirst: bool)

  /** The step a commit takes for staged name `n`: it replaces an entry the
      cache still shows, and saves the child first when the folder kind does
      that (`Folder._set_handler` does, `IDocument._set_handler` does not)
      and the child has unsaved changes. */
  function StepFor(f: Folder, n: Name, savesChanged: bool, changed: set<HandlerId>): AddStep
    requires n in f.added
  {
    AddStep(n, f.added[n], n in f.cache && n !in f.removed, savesChanged && f.added[n] in changed)
  }

  function StepOps(s: AddStep): seq<StoreOp> {
    (if s.replace then [DeleteResource(s.name)] else [])
    + (if s.saveFirst then [SaveChild(s.handler)] else [])
    + [SetResource(s.name, s.handler)]
  }

  function DeleteOps(removals: seq<Name>): (ops: seq<StoreOp>)
    ensures |ops| == |removals|
    ensures forall i :: 0 <= i < |ops| ==> ops[i] == DeleteResource(removals[i])
  {
    if |removals| == 0 then [] else [DeleteResource(removals[0])] + DeleteOps(removals[1..])
  }

  function AddOps(additions: seq<AddStep>): seq<StoreOp> {
    if |additions| == 0 then [] else StepOps(additions[0]) + AddOps(additions[1..])
  }

  /** The whole store log of a commit: every removal, then every addition. */
  function Log(removals: seq<Name>, additions: seq<AddStep>): seq<StoreOp> {
    DeleteOps(removals) + AddOps(additions)
  }

  function StepNames(additions: seq<AddStep>): (names: seq<Name>)
  {
    seq(|additions|, i requires 0 <= i < |additions| => additions[i].name)
  }

  /** Moving one element from a set into a sequence keeps the multiset
      of the two together. */
  lemma MoveOne(done: seq<Name>, todo: set<Name>, n: Name)
    requires n in todo
    ensures multiset(done + [n]) + multiset(todo - {n}) == multiset(done) + multiset(todo)
  {
    assert multiset(todo) == multiset(todo - {n}) + multiset{n};
  }

  /** The first half of `_save`: `_del_handler` for every removed name, then
      an empty `removed`. */
  method CommitRemovals(f: Folder) returns (g: Folder, removals: seq<Name>)
    ensures g.cache.Keys == f.cache.Keys - f.removed
    ensures forall n :: n in g.cache ==> g.cache[n] == f.cache[n]
    ensures g.added == f.added && g.removed == {}
    ensures multiset(removals) == multiset(f.removed)
  {
    g := f;
    removals := [];
    var todo := f.removed;
    while todo != {}
      invariant todo <= f.removed
      invariant multiset(removals) + multiset(todo) == multiset(f.removed)
      invariant g.cache.Keys == f.cache.Keys - (f.removed - todo)
      invariant forall n :: n in g.cache ==> g.cache[n] == f.cache[n]
      invariant g.added == f.added && g.removed == f.removed
      decreases todo
    {
      var n :| n in todo;
      g := CommitDelete(g, n);
      MoveOne(removals, todo, n);
      removals := removals + [n];
      todo := todo - {n};
    }
    g := g.(removed := {});
  }

  /** One staged name written back: a same-named cache entry is deleted,
      then the slot is set unresolved. */
  function AddOne(g: Folder, n: Name): (g': Folder)
    ensures g'.cache.Keys == g.cache.Keys + {n} && g'.cache[n] == None
    ensures forall m :: m in g'.cache && m != n ==> g'.cache[m] == g.cache[m]
    ensures g'.added == g.added && g'.removed == g.removed
  {
    CommitSet(if n in g.cache then CommitDelete(g, n) else g, n)
  }

  /** What the second half of `_save` has established after writing back
      the staged names not in `pending`. */
  ghost predicate AdditionsSoFar(f: Folder, g: Folder, additions: seq<AddStep>, pending: set<Name>,
                                 savesChanged: bool, changed: set<HandlerId>)
  {
    && pending <= f.added.Keys
    && multiset(StepNames(additions)) + multiset(pending) == multiset(f.added.Keys)
    && (forall i :: 0 <= i < |additions| ==>
          additions[i].name in f.added && additions[i] == StepFor(f, additions[i].name, savesChanged, changed))
    && g.added == f.added && g.removed == {}
    && g.cache.Keys == (f.cache.Keys - f.removed) + (f.added.Keys - pending)
    && (forall n :: n in g.cache ==> g.cache[n] == if n in f.added.Keys - pending then None else f.cache[n])
  }

  lemma AdditionsStep(f: Folder, g: Folder, additions: seq<AddStep>, pending: set<Name>,
                      savesChanged: bool, changed: set<HandlerId>, n: Name)
    requires AdditionsSoFar(f, g, additions, pending, savesChanged, changed)
    requires n in pending
    ensures AdditionsSoFar(f, AddOne(g, n), additions + [StepFor(f, n, savesChanged, changed)], pending - {n},
                           savesChanged, changed)
  {
    var step := StepFor(f, n, savesChanged, changed);
    assert StepNames(additions + [step]) == StepNames(additions) + [n];
    MoveOne(StepNames(additions), pending, n);
  }

  lemma AdditionsDone(f: Folder, g: Folder, additions: seq<AddStep>, savesChanged: bool, changed: set<HandlerId>)
    requires AdditionsSoFar(f, g, additions, {}, savesChanged, changed)
    ensures g.(added := map[]).cache.Keys == HandlerNames(f)
    ensures forall n :: n in g.cache && n in f.added ==> g.cache[n] == None
    ensures forall n :: n in g.cache && n !in f.added ==> g.cache[n] == f.cache[n]
    ensures multiset(StepNames(additions)) == multiset(f.added.Keys)
  {
  }

  /** The second half of `_save`, run on the folder the first half left:
      for each staged name, delete a same-named cache entry, write the
      handler, then an empty `added`. */
  method CommitAdditions(f: Folder, g0: Folder, savesChanged: bool, changed: set<HandlerId>)
    returns (g: Folder, additions: seq<AddStep>)
    requires g0.cache.Keys == f.cache.Keys - f.removed
    requires forall n :: n in g0.cache ==> g0.cache[n] == f.cache[n]
    requires g0.added == f.added && g0.removed == {}
    ensures g.added == map[] && g.removed == {}
    ensures g.cache.Keys == HandlerNames(f)
    ensures forall n :: n in g.cache && n in f.added ==> g.cache[n] == None
    ensures forall n :: n in g.cache && n !in f.added ==> g.cache[n] == f.cache[n]
    ensures multiset(StepNames(additions)) == multiset(f.added.Keys)
    ensures forall i :: 0 <= i < |additions| ==>
              additions[i].name in f.added && additions[i] == StepFor(f, additions[i].name, savesChanged, changed)
  {
    g := g0;
    additions := [];
    var pending := f.added.Keys;
    assert AdditionsSoFar(f, g, additions, pending, savesChanged, changed);
    while pending != {}
      invariant AdditionsSoFar(f, g, additions, pending, savesChanged, changed)
      decreases pending
    {
      var n :| n in pending;
      AdditionsStep(f, g, additions, pending, savesChanged, changed, n);
      g := AddOne(g, n);
      additions := additions + [StepFor(f, n, savesChanged, changed)];
      pending := pending - {n};
    }
    AdditionsDone(f, g, additions, savesChanged, changed);
    g := g.(added := map[]);
  }

  /** `_save`: delete every removed name, then write every added handler,
      deleting a same-named entry first; both overlays end empty. Set
      iteration order is the source's (unspecified) dict/set order. */
  method Save(f: Folder, savesChanged: bool, changed: set<HandlerId>)
    returns (g: Folder, removals: seq<Name>, additions: seq<AddStep>)
    ensures g.added == map[] && g.removed == {}
    ensures g.cache.Keys == HandlerNames(f)
    ensures forall n :: n in g.cache && n in f.added ==> g.cache[n] == None
    ensures forall n :: n in g.cache && n !in f.added ==> g.cache[n] == f.cache[n]
    ensures multiset(removals) == multiset(f.removed)
    ensures multiset(StepNames(additions)) == multiset(f.added.Keys)
    ensures forall i :: 0 <= i < |additions| ==>
              additions[i].name in f.added && additions[i] == StepFor(f, additions[i].name, savesChanged, changed)
  {
    var g0;
    g0, removals := CommitRemovals(f);
    g, additions := CommitAdditions(f, g0, savesChanged, changed);
  }

  /** A second commit with no staging in between issues no store operation
      and leaves the folder as the first one did. */
  method SaveTwice(f: Folder, savesChanged: bool, changed: set<HandlerId>)
    returns (g1: Folder, g2: Folder, secondLog: seq<StoreOp>)
    ensures g1.added == map[] && g1.removed == {}
    ensures g1.cache.Keys == HandlerNames(f)
    ensures secondLog == []
    ensures g2 == g1
  {
    var r1, a1;
    g1, r1, a1 := Save(f, savesChanged, changed);
    var r2, a2;
    g2, r2, a2 := Save(g1, savesChanged, changed);
    EmptyLog(g1, r2, a2);
    CommittedIsFixed(g1, g2);
    secondLog := Log(r2, a2);
  }

  /** Committing a folder with empty overlays gives it back unchanged. */
  lemma CommittedIsFixed(g1: Folder, g2: Folder)
    requires g1.added == map[] && g1.removed == {}
    requires g2.added == map[] && g2.removed == {}
    requires g2.cache.Keys == HandlerNames(g1)
    requires forall n :: n in g2.cache && n !in g1.added ==> g2.cache[n] == g1.cache[n]
    ensures g2 == g1
  {
    assert g2.cache == g1.cache;
  }

  lemma EmptyLog(f: Folder, removals: seq<Name>, additions: seq<AddStep>)
    requires f.added == map[] && f.removed == {}
    requires multiset(removals) == multiset(f.removed)
    requires multiset(StepNames(additions)) == multiset(f.added.Keys)
    ensures Log(removals, additions) == []
  {
    assert |removals| == |multiset(removals)| == 0;
    assert |additions| == |StepNames(additions)| == |multiset(StepNames(additions))| == 0;
  }

  // ------------------------------------------------------------------
  // What a commit log does to the backing folder's names
  // ------------------------------------------------------------------

  function ApplyOp(names: set<Name>, op: StoreOp): set<Name> {
    match op
    case DeleteResource(n) => names - {n}
    case SaveChild(_) => names
    case SetResource(n, _) => names + {n}
  }

  function ApplyOps(names: set<Name>, ops: seq<StoreOp>): set<Name>
    decreases |ops|
  {
    if |ops| == 0 then names else ApplyOps(ApplyOp(names, ops[0]), ops[1..])
  }

  lemma {:induction false} ApplyOpsAppend(names: set<Name>, a: seq<StoreOp>, b: seq<StoreOp>)
    ensures ApplyOps(names, a + b) == ApplyOps(ApplyOps(names, a), b)
    decreases |a|
  {
    if |a| > 0 {
      assert (a + b)[0] == a[0];
      assert (a + b)[1..] == a[1..] + b;
      ApplyOpsAppend(ApplyOp(names, a[0]), a[1..], b);
    } else {
      assert a + b == b;
    }
  }

  lemma {:induction false} ApplyDeletes(names: set<Name>, removals: seq<Name>)
    ensures ApplyOps(names, DeleteOps(removals)) == names - set n | n in removals
    decreases |removals|
  {
    if |removals| > 0 {
      var ops := DeleteOps(removals);
      assert ops[1..] == DeleteOps(removals[1..]);
      ApplyDeletes(names - {removals[0]}, removals[1..]);
      assert (set n | n in removals) == {removals[0]} + set n | n in removals[1..];
    }
  }

  lemma StepEffect(names: set<Name>, s: AddStep)
    ensures ApplyOps(names, StepOps(s)) == names + {s.name}
  {
    var del: seq<StoreOp> := if s.replace then [DeleteResource(s.name)] else [];
    var sv: seq<StoreOp> := if s.saveFirst then [SaveChild(s.handler)] else [];
    var put: seq<StoreOp> := [SetResource(s.name, s.handler)];
    assert StepOps(s) == del + (sv + put);
    ApplyOpsAppend(names, del, sv + put);
    ApplyOpsAppend(ApplyOps(names, del), sv, put);
  }

  lemma {:induction false} ApplyAdds(names: set<Name>, additions: seq<AddStep>)
    ensures ApplyOps(names, AddOps(additions)) == names + set n | n in StepNames(additions)
    decreases |additions|
  {
    if |additions| > 0 {
      ApplyOpsAppend(names, StepOps(additions[0]), AddOps(additions[1..]));
      StepEffect(names, additions[0]);
      ApplyAdds(names + {additions[0].name}, additions[1..]);
      assert StepNames(additions) == [additions[0].name] + StepNames(additions[1..]);
      assert (set n | n in StepNames(additions))
          == {additions[0].name} + set n | n in StepNames(additions[1..]);
    }
  }

  /** After a commit the backing folder holds exactly the names that were
      there, minus the removed ones, plus the added ones. */
  lemma {:induction false} SaveStoreEffect(f: Folder, backing: set<Name>, removals: seq<Name>, additions: seq<AddStep>)
    requires multiset(removals) == multiset(f.removed)
    requires multiset(StepNames(additions)) == multiset(f.added.Keys)
    ensures ApplyOps(backing, Log(removals, additions)) == (backing - f.removed) + f.added.Keys
  {
    ApplyOpsAppend(backing, DeleteOps(removals), AddOps(additions));
    ApplyDeletes(backing, removals);
    ApplyAdds(backing - (set n | n in removals), additions);
    ElementsOfEnumeration(removals, f.removed);
    ElementsOfEnumeration(StepNames(additions), f.added.Keys);
  }

  /** A sequence that enumerates a set, each element once, has exactly the
      set's elements. */
  lemma ElementsOfEnumeration(xs: seq<Name>, s: set<Name>)
    requires multiset(xs) == multiset(s)
    ensures (set n | n in xs) == s
  {
    assert forall n :: n in xs <==> n in multiset(xs);
  }

  /** Every removal precedes every write, and within one added name the
      delete of the old entry precedes the write of the new one. */
  lemma DeletesBeforeAdds(removals: seq<Name>, additions: seq<AddStep>)
    ensures forall i :: 0 <= i < |removals| ==> Log(removals, additions)[i] == DeleteResource(removals[i])
    ensures forall i :: 0 <= i < |Log(removals, additions)| && Log(removals, additions)[i].SetResource? ==>
              i >= |removals|
    ensures forall s :: s in additions && s.replace ==> StepOps(s)[0] == DeleteResource(s.name)
    ensures forall s :: s in additions ==> StepOps(s)[|StepOps(s)| - 1] == SetResource(s.name, s.handler)
  {
  }

  /** If the cache mirrored the backing folder before a commit, it mirrors
      it after. */
  lemma SaveKeepsCacheMirror(f: Folder, backing: set<Name>, g: Folder, removals: seq<Name>, additions: seq<AddStep>)
    requires f.cache.Keys - f.removed == backing - f.removed
    requires g.cache.Keys == HandlerNames(f)
    requires multiset(removals) == multiset(f.removed)
    requires multiset(StepNames(additions)) == multiset(f.added.Keys)
    ensures g.cache.Keys == ApplyOps(backing, Log(removals, additions))
  {
    SaveStoreEffect(f, backing, removals, additions);
  }
}

=== FILE: handlers.dfy ===
/** The base handler: one backing resource, a load timestamp and lazily
    parsed semantic state of a format-specific type `S`.

    The resource's current modification time, its bytes, the format's parser
    and "now" are all supplied by the caller: the model never reads a clock
    or a file. `state == None` means the state has not been parsed yet (the
    source parses it on first attribute access); the explicit `EnsureLoaded`
    stands for that interception.
 */
module Handlers {
  import opened Wrappers
  import opened Store
  import opened Transactions

  datatype Handler<S> = Handler(resource: Option<ResourceId>, timestamp: Option<Time>, state: Option<S>)

  /** The outcome of an operation that may touch the transaction registry
      whether or not it succeeds. */
  datatype Step<S> = Step(tx: Transaction, result: Result<Handler<S>>)

  /** The outcome of a save: the registry afterwards and the bytes written. */
  datatype Saved = Saved(tx: Transaction, result: Result<Bytes>)

  datatype Copied<S> = Copied(original: Handler<S>, copy: Handler<S>)

  /** `__init__(resource, **kw)`: a handler without a resource is a fresh one
      and gets the format's default state (`new`); one bound to a resource
      is left unparsed. Either way it has never been loaded. */
  function Init<S>(resource: Option<ResourceId>, skeleton: S): (h: Handler<S>)
    ensures h.resource == resource && h.timestamp == None
    ensures resource.None? <==> h.state.Some?
    ensures h.state.Some? ==> h.state.value == skeleton
  {
    Handler(resource, None, if resource.None? then Some(skeleton) else None)
  }

  /** `is_outdated()`, given what `resource.get_mtime()` reports now. */
  function IsOutdated<S>(h: Handler<S>, mtime: Option<Time>): (r: Result<bool>)
    ensures r.Err? <==> h.timestamp.Some? && h.resource.None?
    ensures r == Ok(true) ==> !InSync(h, mtime)
  {
    if h.timestamp.None? then Ok(false)             // never loaded
    else if h.resource.None? then Err(AttributeError) // `None.get_mtime()`
    else if mtime.None? then Ok(true)               // no mtime: assume the worst
    else Ok(mtime.value > h.timestamp.value)
  }

  /** `has_changed()`, given what `resource.get_mtime()` reports now. */
  function HasChanged<S>(h: Handler<S>, mtime: Option<Time>): (r: Result<bool>)
    ensures r.Err? <==> h.timestamp.Some? && h.resource.None?
    ensures r == Ok(true) ==> !InSync(h, mtime) && mtime.Some?
  {
    if h.timestamp.None? then Ok(false)
    else if h.resource.None? then Err(AttributeError)
    else if mtime.None? then Ok(false)
    else Ok(h.timestamp.value > mtime.value)
  }

  /** The handler's timestamp and the resource's mtime agree. */
  predicate InSync<S>(h: Handler<S>, mtime: Option<Time>) {
    h.timestamp == mtime
  }

  /** A loaded, resource-bound handler whose resource reports an mtime is
      in exactly one of three situations: out of date, changed, or in sync. */
  lemma StalenessTrichotomy<S>(h: Handler<S>, mtime: Option<Time>)
    requires h.timestamp.Some? && h.resource.Some? && mtime.Some?
    ensures IsOutdated(h, mtime).Ok? && HasChanged(h, mtime).Ok?
    ensures IsOutdated(h, mtime).value <==> !HasChanged(h, mtime).value && !InSync(h, mtime)
    ensures HasChanged(h, mtime).value <==> !IsOutdated(h, mtime).value && !InSync(h, mtime)
  {
  }

  /** When the store reports no mtime, a loaded handler counts as out of
      date and never as changed. */
  lemma StalenessWithoutMTime<S>(h: Handler<S>)
    requires h.timestamp.Some? && h.resource.Some?
    ensures IsOutdated(h, None) == Ok(true) && HasChanged(h, None) == Ok(false)
  {
  }

  /** `is_outdated` and `has_changed` never both hold. */
  lemma NeverOutdatedAndChanged<S>(h: Handler<S>, mtime: Option<Time>)
    ensures !(IsOutdated(h, mtime) == Ok(true) && HasChanged(h, mtime) == Ok(true))
  {
  }

  /** A handler that was never loaded is neither out of date nor changed,
      whatever the store reports; in particular a fresh handler. */
  lemma NeverLoadedIsQuiet<S>(resource: Option<ResourceId>, skeleton: S, mtime: Option<Time>)
    ensures IsOutdated(Init(resource, skeleton), mtime) == Ok(false)
    ensures HasChanged(Init(resource, skeleton), mtime) == Ok(false)
  {
  }

  /** `load_state()`: parse the resource's bytes, then record its mtime. */
  function LoadState<S>(h: Handler<S>, mtime: Option<Time>, data: Bytes, parse: Bytes -> Result<S>): (r: Result<Handler<S>>)
    ensures h.resource.None? ==> r == Err(AttributeError)
    ensures h.resource.Some? && parse(data).Err? ==> r == Err(parse(data).error)
    ensures r.Ok? ==> r.value.resource == h.resource && r.value.timestamp == mtime
    ensures r.Ok? ==> r.value.state == Some(parse(data).value)
  {
    if h.resource.None? then Err(AttributeError)
    else
      var s :- parse(data);
      Ok(Handler(h.resource, mtime, Some(s)))
  }

  /** Right after a successful load, neither staleness check fires until
      the resource's mtime moves. */
  lemma LoadStateInSync<S>(h: Handler<S>, mtime: Option<Time>, data: Bytes, parse: Bytes -> Result<S>)
    requires LoadState(h, mtime, data, parse).Ok?
    ensures InSync(LoadState(h, mtime, data, parse).value, mtime)
    ensures IsOutdated(LoadState(h, mtime, data, parse).value, mtime) == Ok(false)
    ensures HasChanged(LoadState(h, mtime, data, parse).value, mtime) == Ok(false)
  {
  }

  /** After a load, the handler becomes outdated exactly when the mtime
      advances past the one recorded at load time. */
  lemma OutdatedOnlyAfterMTimeAdvances<S>(h: Handler<S>, mtime: Time, later: Time, data: Bytes, parse: Bytes -> Result<S>)
    requires LoadState(h, Some(mtime), data, parse).Ok?
    ensures IsOutdated(LoadState(h, Some(mtime), data, parse).value, Some(later)) == Ok(later > mtime)
  {
  }

  /** The explicit form of load-on-first-access: parse only when the state
      has not been parsed yet. */
  function EnsureLoaded<S>(h: Handler<S>, mtime: Option<Time>, data: Bytes, parse: Bytes -> Result<S>): (r: Result<Handler<S>>)
    ensures h.state.Some? ==> r == Ok(h)
    ensures h.state.None? ==> r == LoadState(h, mtime, data, parse)
    ensures r.Ok? ==> r.value.state.Some? && r.value.resource == h.resource
  {
    if h.state.Some? then Ok(h) else LoadState(h, mtime, data, parse)
  }

  /** `load_state_from(resource)`: open the given resource, register with
      the transaction, parse the resource's bytes, then stamp with "now".
      With no resource (`None`) the `open()` fails before anything happens.
      The handler's own resource binding is not changed. */
  function LoadStateFrom<S>(h: Handler<S>, id: HandlerId, tx: Transaction, source: Option<ResourceId>,
                           data: Bytes, parse: Bytes -> Result<S>, now: Time): (r: Step<S>)
    ensures source.None? ==> r == Step(tx, Err(AttributeError))
    ensures source.Some? ==> r.tx.pending == tx.pending + {id} && r.tx.locked == tx.locked
    ensures r.result.Ok? <==> source.Some? && parse(data).Ok?
    ensures r.result.Ok? ==> r.result.value == Handler(h.resource, Some(now), Some(parse(data).value))
  {
    if source.None? then Step(tx, Err(AttributeError))
    else
      var tx' := Add(tx, id);
      match parse(data)
      case Err(e) => Step(tx', Err(e))
      case Ok(s) => Step(tx', Ok(Handler(h.resource, Some(now), Some(s))))
  }

  /** A handler loaded from another resource is a pending local change: it
      is registered for commit, and against its own resource's mtime it
      reports changed and not out of date, so a commit will write it back. */
  lemma LoadedFromIsPendingChange<S>(h: Handler<S>, id: HandlerId, tx: Transaction, source: Option<ResourceId>,
                                     data: Bytes, parse: Bytes -> Result<S>, now: Time, mtime: Time)
    requires h.resource.Some? && source.Some? && parse(data).Ok? && now > mtime
    ensures LoadStateFrom(h, id, tx, source, data, parse, now).result.Ok?
    ensures id in LoadStateFrom(h, id, tx, source, data, parse, now).tx.pending
    ensures HasChanged(LoadStateFrom(h, id, tx, source, data, parse, now).result.value, Some(mtime)) == Ok(true)
    ensures IsOutdated(LoadStateFrom(h, id, tx, source, data, parse, now).result.value, Some(mtime)) == Ok(false)
  {
  }

  /** `save_state()` as written: the lock is taken and `resource.open()` is
      called before the `try`, so when there is no resource the
      `AttributeError` escapes with the lock still held. `serialized` is the
      outcome of the format's `_save_state`. */
  function SaveStateAsWritten<S>(h: Handler<S>, tx: Transaction, serialized: Result<Bytes>): (r: Saved)
    ensures tx.locked ==> r == Saved(tx, Err(Busy))
    ensures !tx.locked && h.resource.None? ==> r.tx.locked && r.result == Err(AttributeError)
    ensures !tx.locked && h.resource.Some? ==> r == Saved(tx, serialized)
  {
    match Lock(tx)
    case Err(e) => Saved(tx, Err(e))
    case Ok(held) =>
      if h.resource.None? then Saved(held, Err(AttributeError))
      else Saved(Release(held), serialized)
  }

  /** A resourceless handler leaves the registry locked after `save_state`,
      so every later save reports the lock as busy. */
  lemma SaveStateLeaksLock<S>(skeleton: S, serialized: Result<Bytes>)
    ensures SaveStateAsWritten(Init(None, skeleton), Transactions.Empty, serialized).tx.locked
    ensures SaveStateAsWritten(Init(None, skeleton),
                               SaveStateAsWritten(Init(None, skeleton), Transactions.Empty, serialized).tx,
                               serialized).result == Err(Busy)
  {
  }

  /** `save_state()` with the lock released on every path out, including a
      missing resource: the registry comes back exactly as it was. */
  function SaveState<S>(h: Handler<S>, tx: Transaction, serialized: Result<Bytes>): (r: Saved)
    ensures !tx.locked ==> r.tx == tx
    ensures tx.locked ==> r == Saved(tx, Err(Busy))
    ensures r.result.Ok? <==> !tx.locked && h.resource.Some? && serialized.Ok?
    ensures r.result.Ok? ==> r.result == serialized
  {
    match Lock(tx)
    case Err(e) => Saved(tx, Err(e))
    case Ok(held) =>
      if h.resource.None? then Saved(Release(held), Err(AttributeError))
      else Saved(Release(held), serialized)
  }

  /** `save_state_to(resource)` as written: like `save_state`, the lock is
      taken and `resource.open()` is called before the `try`, so a missing
      target (`None`) fails with the lock still held. */
  function SaveStateToAsWritten(tx: Transaction, target: Option<ResourceId>, serialized: Result<Bytes>): (r: Saved)
    ensures tx.locked ==> r == Saved(tx, Err(Busy))
    ensures !tx.locked && target.None? ==> r.tx.locked && r.result == Err(AttributeError)
    ensures !tx.locked && target.Some? ==> r == Saved(tx, serialized)
  {
    match Lock(tx)
    case Err(e) => Saved(tx, Err(e))
    case Ok(held) =>
      if target.None? then Saved(held, Err(AttributeError))
      else Saved(Release(held), serialized)
  }

  /** `save_state_to(None)` leaves the registry locked, so every later save
      reports the lock as busy. */
  lemma SaveStateToLeaksLock(serialized: Result<Bytes>, later: Option<ResourceId>)
    ensures SaveStateToAsWritten(Transactions.Empty, None, serialized).tx.locked
    ensures SaveStateToAsWritten(SaveStateToAsWritten(Transactions.Empty, None, serialized).tx,
                                 later, serialized).result == Err(Busy)
  {
  }

  /** `save_state_to(resource)` with the lock released on every path out,
      including a missing target: the registry comes back as it was. */
  function SaveStateTo(tx: Transaction, target: Option<ResourceId>, serialized: Result<Bytes>): (r: Saved)
    ensures !tx.locked ==> r.tx == tx
    ensures tx.locked ==> r == Saved(tx, Err(Busy))
    ensures r.result.Ok? <==> !tx.locked && target.Some? && serialized.Ok?
    ensures r.result.Ok? ==> r.result == serialized
  {
    match Lock(tx)
    case Err(e) => Saved(tx, Err(e))
    case Ok(held) =>
      if target.None? then Saved(Release(held), Err(AttributeError))
      else Saved(Release(held), serialized)
  }

  /** `save_state` is `save_state_to` aimed at the handler's own resource
      (`_save_state` delegates to `_save_state_to`), both as written and
      corrected. */
  lemma SaveStateIsSaveToOwnResource<S>(h: Handler<S>, tx: Transaction, serialized: Result<Bytes>)
    ensures SaveState(h, tx, serialized) == SaveStateTo(tx, h.resource, serialized)
    ensures SaveStateAsWritten(h, tx, serialized) == SaveStateToAsWritten(tx, h.resource, serialized)
  {
  }

  /** `set_changed()`: a resource-bound handler is stamped with "now" and
      registered; a resourceless one is left alone. */
  function SetChanged<S>(h: Handler<S>, id: HandlerId, tx: Transaction, now: Time): (r: (Handler<S>, Transaction))
    ensures h.resource.None? ==> r == (h, tx)
    ensures h.resource.Some? ==> r.0 == h.(timestamp := Some(now))
    ensures h.resource.Some? ==> r.1.pending == tx.pending + {id} && r.1.locked == tx.locked
  {
    if h.resource.None? then (h, tx)
    else (h.(timestamp := Some(now)), Add(tx, id))
  }

  /** Marking a handler changed twice at the same instant is the same as
      marking it once. */
  lemma SetChangedIdempotent<S>(h: Handler<S>, id: HandlerId, tx: Transaction, now: Time)
    ensures SetChanged(SetChanged(h, id, tx, now).0, id, SetChanged(h, id, tx, now).1, now)
            == SetChanged(h, id, tx, now)
  {
  }

  /** Once marked at a time later than the resource's mtime, the handler
      reports a pending local change and is not out of date. */
  lemma SetChangedMakesChanged<S>(h: Handler<S>, id: HandlerId, tx: Transaction, now: Time, mtime: Time)
    requires h.resource.Some? && now > mtime
    ensures HasChanged(SetChanged(h, id, tx, now).0, Some(mtime)) == Ok(true)
    ensures IsOutdated(SetChanged(h, id, tx, now).0, Some(mtime)) == Ok(false)
  {
  }

  /** `copy_handler()`: load the original fully, then build a detached copy
      that shares neither the resource nor the timestamp. The original comes
      back loaded. */
  function CopyHandler<S>(h: Handler<S>, mtime: Option<Time>, data: Bytes, parse: Bytes -> Result<S>): (r: Result<Copied<S>>)
    ensures r.Ok? <==> LoadState(h, mtime, data, parse).Ok?
    ensures r.Ok? ==> r.value.original == LoadState(h, mtime, data, parse).value
    ensures r.Ok? ==> r.value.copy.resource.None? && r.value.copy.timestamp.None?
    ensures r.Ok? ==> r.value.copy.state == r.value.original.state && r.value.copy.state.Some?
  {
    var loaded :- LoadState(h, mtime, data, parse);
    Ok(Copied(loaded, Handler(None, None, loaded.state)))
  }

  /** A copy is detached: no staleness check ever fires on it, and marking
      it changed leaves it and the registry untouched. */
  lemma CopyIsDetached<S>(h: Handler<S>, mtime: Option<Time>, data: Bytes, parse: Bytes -> Result<S>,
                          later: Option<Time>, id: HandlerId, tx: Transaction, now: Time)
    requires CopyHandler(h, mtime, data, parse).Ok?
    ensures IsOutdated(CopyHandler(h, mtime, data, parse).value.copy, later) == Ok(false)
    ensures HasChanged(CopyHandler(h, mtime, data, parse).value.copy, later) == Ok(false)
    ensures SetChanged(CopyHandler(h, mtime, data, parse).value.copy, id, tx, now)
            == (CopyHandler(h, mtime, data, parse).value.copy, tx)
  {
  }
}

=== FILE: namespaces.dfy ===
/** The namespace registry of the XML layer: a map from namespace URI to the
    namespace handler that knows the elements and attributes of that
    namespace, a map from prefix to URI, and the schema lookups the parser
    makes through them.

    The registry is process-wide state in the source; here it is a value
    that registrations transform. Warnings are returned as a flag where the
    source issues one on registration, and dropped where it issues one on a
    fallback lookup.
 */
module Namespaces {
  import opened Wrappers

  type Uri = string
  type Prefix = string

  const XmlUri: Uri := "http://www.w3.org/XML/1998/namespace"
  const XmlnsUri: Uri := "http://www.w3.org/2000/xmlns/"

  /** The attribute datatypes the core names; the rest of the datatypes
      library is opaque. */
  datatype DataType = String | Unicode | OtherType(name: string)

  /** An element's schema: its attribute table, and whether it is empty
      (has no content). */
  datatype ElementSchema = ElementSchema(
    name: string,
    classUri: Option<Uri>,
    attributes: map<string, DataType>,
    isEmpty: bool)

  /** `ElementSchema(name)` with every class default: no URI, no
      attributes, not empty. */
  function PlainSchema(name: string): (s: ElementSchema)
    ensures s.name == name && s.classUri == None && s.attributes == map[] && !s.isEmpty
  {
    ElementSchema(name, None, map[], false)
  }

  /** Which namespace class answers: the base `XMLNamespace`, the
      `DefaultNamespace` for free elements, or the `XMLNSNamespace` of
      namespace declarations. */
  datatype Flavour = Plain | Default | Xmlns

  datatype Namespace = Namespace(
    uri: Option<Uri>,
    prefix: Option<Prefix>,
    elements: map<string, ElementSchema>,
    freeAttributes: map<string, DataType>,
    flavour: Flavour)

  datatype Registry = Registry(namespaces: map<Option<Uri>, Namespace>, prefixes: map<Prefix, Option<Uri>>)

  const Empty := Registry(map[], map[])

  // ------------------------------------------------------------------
  // Constructing a namespace
  // ------------------------------------------------------------------

  ghost predicate HasDuplicateName(es: seq<ElementSchema>) {
    exists i, j :: 0 <= i < j < |es| && es[i].name == es[j].name
  }

  /** The element table a list of schemas without duplicate names builds. */
  ghost predicate IndexesAll(m: map<string, ElementSchema>, es: seq<ElementSchema>) {
    && m.Keys == (set i | 0 <= i < |es| :: es[i].name)
    && (forall i :: 0 <= i < |es| ==> m[es[i].name] == es[i])
  }

  /** `XMLNamespace(uri, prefix, elements, free_attributes)`: fails with
      ValueError when two schemas share a name; otherwise each schema is
      indexed by its name. */
  method NewNamespace(uri: Option<Uri>, prefix: Option<Prefix>, elements: Option<seq<ElementSchema>>,
                      freeAttributes: Option<map<string, DataType>>, flavour: Flavour)
    returns (r: Result<Namespace>)
    ensures r.Err? <==> elements.Some? && HasDuplicateName(elements.value)
    ensures r.Err? ==> r.error == ValueError
    ensures r.Ok? ==> r.value.uri == uri && r.value.prefix == prefix && r.value.flavour == flavour
    ensures r.Ok? ==> r.value.freeAttributes == (if freeAttributes.Some? then freeAttributes.value else map[])
    ensures r.Ok? && elements.None? ==> r.value.elements == map[]
    ensures r.Ok? && elements.Some? ==> IndexesAll(r.value.elements, elements.value)
  {
    var table: map<string, ElementSchema> := map[];
    if elements.Some? {
      var es := elements.value;
      var k := 0;
      while k < |es|
        invariant 0 <= k <= |es|
        invariant !HasDuplicateName(es[..k])
        invariant IndexesAll(table, es[..k])
      {
        if es[k].name in table {
          var i :| 0 <= i < k && es[i].name == es[k].name;
          assert es[i].name == es[k].name;
          return Err(ValueError);
        }
        assert es[..k + 1] == es[..k] + [es[k]];
        table := table[es[k].name := es[k]];
        k := k + 1;
      }
      assert es[..k] == es;
    }
    var free := if freeAttributes.Some? then freeAttributes.value else map[];
    return Ok(Namespace(uri, prefix, table, free, flavour));
  }

  // ------------------------------------------------------------------
  // Registration and lookup
  // ------------------------------------------------------------------

  /** Maps every one of `uris` to `ns`. */
  function MapUris(m: map<Option<Uri>, Namespace>, ns: Namespace, uris: seq<Option<Uri>>): (m': map<Option<Uri>, Namespace>)
    ensures m'.Keys == m.Keys + (set i | 0 <= i < |uris| :: uris[i])
    ensures forall i :: 0 <= i < |uris| ==> m'[uris[i]] == ns
    ensures forall u :: u in m && u !in uris ==> m'[u] == m[u]
    decreases |uris|
  {
    if |uris| == 0 then m
    else
      var m1 := MapUris(m, ns, uris[1..]);
      assert forall u :: u in uris[1..] ==> u in uris;
      m1[uris[0] := ns]
  }

  datatype Registered = Registered(registry: Registry, warned: bool)

  /** `register_namespace(ns, *uris)`: `ns` answers for its own URI and for
      every extra one; its prefix, if any, now names its URI, with a
      warning (never a failure) when the prefix was already taken. */
  function Register(reg: Registry, ns: Namespace, extra: seq<Option<Uri>>): (r: Registered)
    ensures r.registry.namespaces.Keys == reg.namespaces.Keys + {ns.uri} + (set i | 0 <= i < |extra| :: extra[i])
    ensures r.registry.namespaces[ns.uri] == ns
    ensures forall i :: 0 <= i < |extra| ==> r.registry.namespaces[extra[i]] == ns
    ensures forall u :: u in reg.namespaces && u != ns.uri && u !in extra ==> r.registry.namespaces[u] == reg.namespaces[u]
    ensures ns.prefix.None? ==> r.registry.prefixes == reg.prefixes && !r.warned
    ensures ns.prefix.Some? ==> r.registry.prefixes == reg.prefixes[ns.prefix.value := ns.uri]
    ensures r.warned <==> ns.prefix.Some? && ns.prefix.value in reg.prefixes
  {
    var m := MapUris(reg.namespaces[ns.uri := ns], ns, extra);
    match ns.prefix
    case None => Registered(Registry(m, reg.prefixes), false)
    case Some(p) => Registered(Registry(m, reg.prefixes[p := ns.uri]), p in reg.prefixes)
  }

  /** The default namespace is registered: the fallback lookups cannot
      fail. */
  predicate Loaded(reg: Registry) {
    None in reg.namespaces
  }

  /** `get_namespace(uri)`: the registered handler, else the default one;
      without a default the fallback raises KeyError. */
  function GetNamespace(reg: Registry, uri: Option<Uri>): (r: Result<Namespace>)
    ensures uri in reg.namespaces ==> r == Ok(reg.namespaces[uri])
    ensures uri !in reg.namespaces && Loaded(reg) ==> r == Ok(reg.namespaces[None])
    ensures r.Err? <==> !Loaded(reg) && uri !in reg.namespaces
    ensures r.Err? ==> r.error == KeyError
  {
    if uri in reg.namespaces then Ok(reg.namespaces[uri])
    else if None in reg.namespaces then Ok(reg.namespaces[None])
    else Err(KeyError)
  }

  /** `has_namespace(uri)`: whether `get_namespace` finds the URI itself
      rather than falling back. */
  function HasNamespace(reg: Registry, uri: Option<Uri>): bool {
    uri in reg.namespaces
  }

  lemma HasNamespaceMeansOwnHandler(reg: Registry, uri: Option<Uri>)
    requires Loaded(reg)
    ensures HasNamespace(reg, uri) ==> GetNamespace(reg, uri) == Ok(reg.namespaces[uri])
    ensures !HasNamespace(reg, uri) ==> GetNamespace(reg, uri) == Ok(reg.namespaces[None])
  {
  }

  /** `get_namespace_by_prefix(prefix)`: a known prefix goes through its
      URI; an unknown one gets the default handler. */
  function GetNamespaceByPrefix(reg: Registry, prefix: Prefix): (r: Result<Namespace>)
    ensures prefix in reg.prefixes ==> r == GetNamespace(reg, reg.prefixes[prefix])
    ensures prefix !in reg.prefixes && Loaded(reg) ==> r == Ok(reg.namespaces[None])
    ensures Loaded(reg) ==> r.Ok?
  {
    if prefix in reg.prefixes then GetNamespace(reg, reg.prefixes[prefix])
    else if None in reg.namespaces then Ok(reg.namespaces[None])
    else Err(KeyError)
  }

  /** Registration never unregisters anything, so the default handler,
      once there, stays. */
  lemma RegisterKeepsLoaded(reg: Registry, ns: Namespace, extra: seq<Option<Uri>>)
    requires Loaded(reg)
    ensures Loaded(Register(reg, ns, extra).registry)
  {
  }

  /** After registering `ns`, its URI and each extra URI resolve to it. */
  lemma RegisteredIsFound(reg: Registry, ns: Namespace, extra: seq<Option<Uri>>)
    ensures GetNamespace(Register(reg, ns, extra).registry, ns.uri) == Ok(ns)
    ensures forall i :: 0 <= i < |extra| ==> GetNamespace(Register(reg, ns, extra).registry, extra[i]) == Ok(ns)
    ensures ns.prefix.Some? ==> GetNamespaceByPrefix(Register(reg, ns, extra).registry, ns.prefix.value) == Ok(ns)
  {
  }

  /** Two registrations under one prefix: the second wins and warns. */
  lemma PrefixLastWins(reg: Registry, ns1: Namespace, ns2: Namespace)
    requires ns1.prefix.Some? && ns2.prefix == ns1.prefix
    ensures var r1 := Register(reg, ns1, []);
            var r2 := Register(r1.registry, ns2, []);
            r2.warned && r2.registry.prefixes[ns2.prefix.value] == ns2.uri
            && GetNamespaceByPrefix(r2.registry, ns2.prefix.value) == Ok(ns2)
  {
  }

  /** A sequence of registrations, in order. */
  function RegisterAll(reg: Registry, regs: seq<(Namespace, seq<Option<Uri>>)>): Registry
    decreases |regs|
  {
    if |regs| == 0 then reg
    else RegisterAll(Register(reg, regs[0].0, regs[0].1).registry, regs[1..])
  }

  /** Once the default is registered, no further registrations make a
      lookup fail: `get_namespace` and `get_namespace_by_prefix` are total. */
  lemma {:induction false} LookupsNeverFail(reg: Registry, regs: seq<(Namespace, seq<Option<Uri>>)>,
                                            uri: Option<Uri>, prefix: Prefix)
    requires Loaded(reg)
    ensures GetNamespace(RegisterAll(reg, regs), uri).Ok?
    ensures GetNamespaceByPrefix(RegisterAll(reg, regs), prefix).Ok?
    decreases |regs|
  {
    if |regs| > 0 {
      RegisterKeepsLoaded(reg, regs[0].0, regs[0].1);
      LookupsNeverFail(Register(reg, regs[0].0, regs[0].1).registry, regs[1..], uri, prefix);
    }
  }

  // ------------------------------------------------------------------
  // Schemas
  // ------------------------------------------------------------------

  /** `get_element(name)`: the default namespace makes up a plain schema
      for any name; the others know only their own elements. */
  function GetElement(ns: Namespace, name: string): (r: Result<ElementSchema>)
    ensures ns.flavour == Default ==> r == Ok(PlainSchema(name))
    ensures ns.flavour != Default ==> (r.Ok? <==> name in ns.elements)
    ensures ns.flavour != Default && r.Ok? ==> r.value == ns.elements[name]
    ensures r.Err? ==> r.error == XmlError
  {
    if ns.flavour == Default then Ok(PlainSchema(name))
    else if name in ns.elements then Ok(ns.elements[name])
    else Err(XmlError)
  }

  /** `get_element_schema(uri, name)`. */
  function GetElementSchema(reg: Registry, uri: Option<Uri>, name: string): (r: Result<ElementSchema>)
    ensures GetNamespace(reg, uri).Err? ==> r == Err(KeyError)
    ensures GetNamespace(reg, uri).Ok? ==> r == GetElement(GetNamespace(reg, uri).value, name)
  {
    var ns :- GetNamespace(reg, uri);
    GetElement(ns, name)
  }

  /** `is_empty(uri, name)`: the schema's own flag, false by default. */
  function IsEmpty(reg: Registry, uri: Option<Uri>, name: string): (r: Result<bool>)
    ensures r.Ok? <==> GetElementSchema(reg, uri, name).Ok?
    ensures r.Ok? ==> r.value == GetElementSchema(reg, uri, name).value.isEmpty
  {
    var schema :- GetElementSchema(reg, uri, name);
    Ok(schema.isEmpty)
  }

  /** Elements of the default namespace, and elements of an unregistered
      namespace when the default is the built-in one, are never empty. */
  lemma DefaultElementsAreNotEmpty(reg: Registry, uri: Option<Uri>, name: string)
    requires Loaded(reg) && reg.namespaces[None].flavour == Default
    requires uri !in reg.namespaces || reg.namespaces[uri].flavour == Default
    ensures IsEmpty(reg, uri, name) == Ok(false)
  {
  }

  /** `get_free_attribute(name)` as the source resolves it: `XMLNSNamespace`
      defines `get_free_datatype`, which nothing calls, so the xmlns
      namespace answers from its (empty) free-attribute table like any
      other. */
  function GetFreeAttributeAsWritten(ns: Namespace, name: string): (r: Result<DataType>)
    ensures r.Ok? <==> name in ns.freeAttributes
    ensures r.Ok? ==> r.value == ns.freeAttributes[name]
    ensures r.Err? ==> r.error == XmlError
  {
    if name in ns.freeAttributes then Ok(ns.freeAttributes[name]) else Err(XmlError)
  }

  /** `get_free_attribute(name)` with the xmlns override applied: every
      `xmlns:` attribute is a String. */
  function GetFreeAttribute(ns: Namespace, name: string): (r: Result<DataType>)
    ensures ns.flavour == Xmlns ==> r == Ok(String)
    ensures ns.flavour != Xmlns ==> r == GetFreeAttributeAsWritten(ns, name)
  {
    if ns.flavour == Xmlns then Ok(String) else GetFreeAttributeAsWritten(ns, name)
  }

  /** An attribute in the element's own table. */
  function OwnAttribute(schema: ElementSchema, name: string): (r: Result<DataType>)
    ensures r.Ok? <==> name in schema.attributes
    ensures r.Ok? ==> r.value == schema.attributes[name]
    ensures r.Err? ==> r.error == XmlError
  {
    if name in schema.attributes then Ok(schema.attributes[name]) else Err(XmlError)
  }

  /** `ElementSchema.get_attr_datatype(uri, name)`, with the free-attribute
      lookup `free` of the foreign namespace as a parameter: an unqualified
      `xmlns` is a String; an unqualified or own-namespace attribute must be
      in the element's table; a foreign one is the foreign namespace's
      free attribute. */
  function AttrDatatype(reg: Registry, schema: ElementSchema, attrUri: Option<Uri>, attrName: string,
                        free: (Namespace, string) -> Result<DataType>): (r: Result<DataType>)
    ensures attrUri.None? && attrName == "xmlns" ==> r == Ok(String)
    ensures attrUri.None? && attrName != "xmlns" ==> r == OwnAttribute(schema, attrName)
    ensures attrUri.Some? && attrUri == schema.classUri ==> r == OwnAttribute(schema, attrName)
    ensures (attrUri.Some? && attrUri != schema.classUri && GetNamespace(reg, attrUri).Ok?) ==>
              r == free(GetNamespace(reg, attrUri).value, attrName)
  {
    if attrUri.None? && attrName == "xmlns" then Ok(String)
    else if attrUri.None? || attrUri == schema.classUri then OwnAttribute(schema, attrName)
    else
      var ns :- GetNamespace(reg, attrUri);
      free(ns, attrName)
  }

  function GetAttrDatatypeAsWritten(reg: Registry, schema: ElementSchema, attrUri: Option<Uri>, attrName: string): Result<DataType> {
    AttrDatatype(reg, schema, attrUri, attrName, GetFreeAttributeAsWritten)
  }

  function GetAttrDatatype(reg: Registry, schema: ElementSchema, attrUri: Option<Uri>, attrName: string): Result<DataType> {
    AttrDatatype(reg, schema, attrUri, attrName, GetFreeAttribute)
  }

  // ------------------------------------------------------------------
  // The built-in registry
  // ------------------------------------------------------------------

  const XmlNamespace := Namespace(Some(XmlUri), Some("xml"), map[],
    map["lang" := String, "space" := String, "base" := String, "id" := String], Plain)
  const XmlnsNamespace := Namespace(Some(XmlnsUri), Some("xmlns"), map[], map[], Xmlns)
  const DefaultNamespace := Namespace(None, None, map[], map[], Default)

  /** The registry as the module leaves it when loaded. */
  function Builtin(): Registry {
    var r1 := Register(Empty, XmlNamespace, []).registry;
    var r2 := Register(r1, XmlnsNamespace, []).registry;
    Register(r2, DefaultNamespace, []).registry
  }

  lemma BuiltinFacts()
    ensures Loaded(Builtin()) && Builtin().namespaces[None] == DefaultNamespace
    ensures Builtin().namespaces.Keys == {None, Some(XmlUri), Some(XmlnsUri)}
    ensures Builtin().prefixes == map["xml" := Some(XmlUri), "xmlns" := Some(XmlnsUri)]
    ensures GetNamespaceByPrefix(Builtin(), "xml") == Ok(XmlNamespace)
    ensures GetNamespace(Builtin(), Some("urn:unknown")) == Ok(DefaultNamespace)
  {
  }

  /** The xmlns namespace's free-attribute override is dead code: a
      namespace declaration `xmlns:p` on any element not of the xmlns
      namespace is rejected with XmlError, where the corrected lookup
      answers String. */
  lemma XmlnsDeclarationRejected(schema: ElementSchema, p: string)
    requires schema.classUri != Some(XmlnsUri)
    ensures GetAttrDatatypeAsWritten(Builtin(), schema, Some(XmlnsUri), p) == Err(XmlError)
    ensures GetAttrDatatype(Builtin(), schema, Some(XmlnsUri), p) == Ok(String)
  {
    BuiltinFacts();
  }

  /** The built-in `xml:` attributes are Strings on every element outside
      that namespace. */
  lemma XmlAttributesAreStrings(schema: ElementSchema, a: string)
    requires schema.classUri != Some(XmlUri) && a in {"lang", "space", "base", "id"}
    ensures GetAttrDatatype(Builtin(), schema, Some(XmlUri), a) == Ok(String)
  {
    BuiltinFacts();
  }
}

=== FILE: registry.dfy ===
/** The handler kinds the core knows and the dispatch that picks one for a
    child found in the backing store.

    `Handler.build_handler` and the registry it consults are not part of
    this model; the model stands them in with the generic choice by
    resource type: a folder resource gets a `Folder`, anything else an
    opaque `File`.
 */
module Registry {
  import opened Store

  datatype Kind =
    | FileKind           // generic opaque file handler
    | FolderKind         // handlers/Folder.py
    | IDocumentKind      // catalog/IDocument.py, a Folder
    | IndexedFieldKind   // catalog/IDocument.py, a File
    | StoredFieldKind    // catalog/IDocument.py, a File

  /** Kinds that are containers and answer `get_handler`. */
  predicate IsFolderKind(k: Kind) {
    k == FolderKind || k == IDocumentKind
  }

  /** The default factory: chosen by the child resource's type. */
  function BuildHandler(isFolderResource: bool): Kind {
    if isFolderResource then FolderKind else FileKind
  }

  predicate StartsWith(name: Name, c: char) {
    |name| > 0 && name[0] == c
  }

  /** `_get_handler(segment, resource)` of a container of kind `parent`:
      an IDocument picks its field kind by the name's first letter and
      otherwise defers to the Folder default, which every other container
      uses. Never fails. */
  function ChildKind(parent: Kind, name: Name, isFolderResource: bool): Kind {
    if parent == IDocumentKind && StartsWith(name, 'i') then IndexedFieldKind
    else if parent == IDocumentKind && StartsWith(name, 's') then StoredFieldKind
    else BuildHandler(isFolderResource)
  }

  /** Field kinds come only from an IDocument, and exactly by the first
      letter; every other child gets the factory's kind. */
  lemma ChildKindCharacterized(parent: Kind, name: Name, isFolderResource: bool)
    ensures ChildKind(parent, name, isFolderResource) == IndexedFieldKind
            <==> parent == IDocumentKind && |name| > 0 && name[0] == 'i'
    ensures ChildKind(parent, name, isFolderResource) == StoredFieldKind
            <==> parent == IDocumentKind && |name| > 0 && name[0] == 's'
    ensures ChildKind(parent, name, isFolderResource) in {FileKind, FolderKind}
            <==> !(parent == IDocumentKind && |name| > 0 && name[0] in {'i', 's'})
    ensures IsFolderKind(ChildKind(parent, name, isFolderResource))
            ==> ChildKind(parent, name, isFolderResource) == FolderKind && isFolderResource
  {
  }
}

=== FILE: store.dfy ===
/** The backing store, abstracted to what the handler tree reads from it:
    a map from resource identity to resource, where a resource reports an
    optional modification time and, for a folder, its named children.
    Byte contents are not kept here; the field codecs work on bytes directly.
 */
module Store {
  import opened Wrappers

  type Name = string
  /** A point in time, as reported by `get_mtime()` or supplied as "now". */
  type Time = int
  type ResourceId = nat
  type HandlerId = nat
  newtype Byte = b: int | 0 <= b < 256
  type Bytes = seq<Byte>

  datatype Resource =
    | FileResource(mtime: Option<Time>)
    | FolderResource(mtime: Option<Time>, children: map<Name, ResourceId>)

  type Store = map<ResourceId, Resource>

  /** `get_mtime()` of a resource; a resource missing from the store is a
      resource error. */
  function MTime(store: Store, r: ResourceId): (m: Result<Option<Time>>)
    ensures m.Ok? <==> r in store
    ensures m.Ok? ==> m.value == store[r].mtime
  {
    if r in store then Ok(store[r].mtime) else Err(ResourceError)
  }

  /** `get_resource(name)` on a folder resource. */
  function ChildResource(store: Store, r: ResourceId, name: Name): (c: Result<ResourceId>)
    ensures c.Ok? <==> r in store && store[r].FolderResource? && name in store[r].children
    ensures c.Ok? ==> c.value == store[r].children[name]
  {
    if r in store && store[r].FolderResource? && name in store[r].children
    then Ok(store[r].children[name])
    else Err(ResourceError)
  }
}

=== FILE: transactions.dfy ===
/** The transaction registry: the set of handlers with unflushed local
    changes, plus the single coarse lock that brackets a save.

    The registry's own source file is not part of this model; it is written
    from the way the handlers use it (`add`, `lock`, `release`). A real lock
    would block a second `lock()`; with no other thread to release it, the
    model reports that situation as `Busy` instead.
 */
module Transactions {
  import opened Wrappers
  import opened Store

  datatype Transaction = Transaction(pending: set<HandlerId>, locked: bool)

  const Empty := Transaction({}, false)

  /** `add(handler)`: registration by identity. */
  function Add(t: Transaction, id: HandlerId): (r: Transaction)
    ensures r.pending == t.pending + {id}
    ensures r.locked == t.locked
  {
    t.(pending := t.pending + {id})
  }

  function Lock(t: Transaction): (r: Result<Transaction>)
    ensures r.Ok? <==> !t.locked
    ensures r.Ok? ==> r.value.locked && r.value.pending == t.pending
    ensures r.Err? ==> r.error == Busy
  {
    if t.locked then Err(Busy) else Ok(t.(locked := true))
  }

  function Release(t: Transaction): (r: Transaction)
    ensures !r.locked && r.pending == t.pending
  {
    t.(locked := false)
  }

  /** Registering twice is the same as registering once. */
  lemma AddIdempotent(t: Transaction, id: HandlerId)
    ensures Add(Add(t, id), id) == Add(t, id)
  {
  }

  /** Lock then release gives back the registry as it was, when it was free. */
  lemma LockReleaseRestores(t: Transaction)
    requires !t.locked
    ensures Lock(t).Ok? && Release(Lock(t).value) == t
  {
  }
}

=== FILE: tree.dfy ===
/** The handler tree: handlers live in an arena indexed by identity, each
    with a non-owning link to its parent and its depth below the root of
    its tree. Path resolution walks the arena, consulting each folder's
    overlays and cache, instantiating children on a cache miss and reloading
    cached children that are out of date.

    A reload or an instantiation of a folder re-reads the backing folder's
    names; a reload of any other handler only re-stamps it (its parsed
    state is not kept here: see `Handlers` and `Catalog`).
 */
module HandlerTree {
  import opened Wrappers
  import opened Store
  import opened Transactions
  import opened Registry
  import Handlers
  import Folders

  datatype Node = Node(
    kind: Kind,
    resource: Option<ResourceId>,
    timestamp: Option<Time>,
    parent: Option<HandlerId>,
    name: Name,
    depth: nat,               // strictly above the parent's: parent links climb to a root
    folder: Folders.Folder)   // the staging state; empty for non-folder kinds

  datatype Tree = Tree(nodes: map<HandlerId, Node>, store: Store, next: HandlerId, tx: Transaction)

  /** The result of a lookup, with the tree it leaves behind: lookups fill
      and evict cache slots even when they fail. */
  datatype Lookup = Lookup(tree: Tree, result: Result<HandlerId>)

  /** The answer of a query on the tree, with the tree it leaves behind. */
  datatype Answer<T> = Answer(tree: Tree, result: Result<T>)

  /** The outcome of a traversal: the handlers in the order visited. */
  datatype Walk = Walk(tree: Tree, result: Result<seq<HandlerId>>)

  ghost predicate ParentOk(t: Tree, id: HandlerId)
    requires id in t.nodes
  {
    match t.nodes[id].parent
    case None => true
    case Some(p) => p in t.nodes && t.nodes[p].depth < t.nodes[id].depth
  }

  ghost predicate ChildrenOk(t: Tree, f: Folders.Folder) {
    && (forall n :: n in f.cache && f.cache[n].Some? ==> f.cache[n].value in t.nodes)
    && (forall n :: n in f.added ==> f.added[n] in t.nodes)
  }

  /** Every handler the arena refers to is in it, newId identities are
      above every used one, and parent links climb strictly. */
  ghost predicate Wf(t: Tree) {
    && (forall id :: id in t.nodes ==> id < t.next)
    && (forall id :: id in t.nodes ==> ParentOk(t, id))
    && (forall id :: id in t.nodes ==> ChildrenOk(t, t.nodes[id].folder))
  }

  /** `t2` extends `t1`: no handler disappears or changes kind, parent, name
      or depth; the store is untouched. */
  ghost predicate Grows(t1: Tree, t2: Tree) {
    && t1.nodes.Keys <= t2.nodes.Keys
    && t1.next <= t2.next
    && t1.store == t2.store
    && (forall id :: id in t1.nodes ==>
          && t2.nodes[id].kind == t1.nodes[id].kind
          && t2.nodes[id].parent == t1.nodes[id].parent
          && t2.nodes[id].name == t1.nodes[id].name
          && t2.nodes[id].depth == t1.nodes[id].depth)
  }

  lemma GrowsTrans(t1: Tree, t2: Tree, t3: Tree)
    requires Grows(t1, t2) && Grows(t2, t3)
    ensures Grows(t1, t3)
  {
  }

  /** Replaces one handler's staging state. */
  function WithFolder(t: Tree, id: HandlerId, f: Folders.Folder): (t': Tree)
    requires id in t.nodes
    ensures Grows(t, t') && t'.nodes.Keys == t.nodes.Keys && t'.tx == t.tx
    ensures t'.nodes[id].folder == f
    ensures forall k :: k in t.nodes && k != id ==> t'.nodes[k] == t.nodes[k]
  {
    t.(nodes := t.nodes[id := t.nodes[id].(folder := f)])
  }

  /** Replacing one handler by one with the same parent and depth, whose
      children are in the arena, keeps the arena well formed, whatever the
      registry. */
  lemma ReplaceNodeWf(t: Tree, id: HandlerId, n: Node, tx: Transaction)
    requires Wf(t) && id in t.nodes
    requires n.parent == t.nodes[id].parent && n.depth == t.nodes[id].depth && ChildrenOk(t, n.folder)
    ensures Wf(t.(nodes := t.nodes[id := n], tx := tx))
  {
    var t' := t.(nodes := t.nodes[id := n], tx := tx);
    forall k | k in t'.nodes
      ensures ParentOk(t', k) && ChildrenOk(t', t'.nodes[k].folder)
    {
      assert ParentOk(t, k) && ChildrenOk(t, t.nodes[k].folder);
    }
  }

  lemma WithFolderWf(t: Tree, id: HandlerId, f: Folders.Folder)
    requires Wf(t) && id in t.nodes && ChildrenOk(t, f)
    ensures Wf(WithFolder(t, id, f))
  {
    ReplaceNodeWf(t, id, t.nodes[id].(folder := f), t.tx);
  }

  /** The folder state a handler of kind `k` starts with when bound to
      resource `r`: a folder loads its backing names at construction, other
      handlers stay unparsed and unstamped. */
  function Construct(t: Tree, k: Kind, r: ResourceId, parent: HandlerId, name: Name, depth: nat): (n: Node)
    requires r in t.store
    ensures n.kind == k && n.resource == Some(r) && n.parent == Some(parent) && n.name == name && n.depth == depth
    ensures n.folder.added == map[] && n.folder.removed == {}
    ensures IsFolderKind(k) ==> n.timestamp == t.store[r].mtime
    ensures IsFolderKind(k) && t.store[r].FolderResource? ==> Folders.HandlerNames(n.folder) == t.store[r].children.Keys
    ensures !IsFolderKind(k) ==> n.timestamp == None && Folders.HandlerNames(n.folder) == {}
  {
    if IsFolderKind(k) then
      var names := if t.store[r].FolderResource? then t.store[r].children.Keys else {};
      Node(k, Some(r), t.store[r].mtime, Some(parent), name, depth, Folders.Load(names))
    else
      Node(k, Some(r), None, Some(parent), name, depth, Folders.Load({}))
  }

  /** Adds a handler under the next identity; its parent must be in the
      arena and above it. */
  function AddNode(t: Tree, child: Node): (t': Tree)
    requires Wf(t) && ChildrenOk(t, child.folder)
    requires child.parent.Some? && child.parent.value in t.nodes && child.depth > t.nodes[child.parent.value].depth
    ensures Wf(t') && Grows(t, t') && t'.tx == t.tx
    ensures t'.next == t.next + 1 && t'.nodes.Keys == t.nodes.Keys + {t.next}
    ensures t'.nodes[t.next] == child
    ensures forall k :: k in t.nodes ==> t'.nodes[k] == t.nodes[k]
  {
    var t' := t.(nodes := t.nodes[t.next := child], next := t.next + 1);
    assert Wf(t') by {
      forall k | k in t'.nodes
        ensures k < t'.next && ParentOk(t', k) && ChildrenOk(t', t'.nodes[k].folder)
      {
        if k != t.next {
          assert ParentOk(t, k) && ChildrenOk(t, t.nodes[k].folder);
        }
      }
    }
    t'
  }

  /** Filling a slot with the handler just added keeps the folder's
      references inside the grown arena. */
  lemma FillChildrenOk(t: Tree, t1: Tree, f: Folders.Folder, name: Name)
    requires ChildrenOk(t, f) && t.next in t1.nodes && t.nodes.Keys <= t1.nodes.Keys
    ensures ChildrenOk(t1, Folders.Fill(f, name, t.next))
  {
  }

  /** Adds `child` to the arena under the next identity and fills `id`'s
      cache slot `name` with it. */
  function Adopt(t: Tree, id: HandlerId, name: Name, child: Node): (t': Tree)
    requires Wf(t) && id in t.nodes
    requires child.parent == Some(id) && child.depth > t.nodes[id].depth && ChildrenOk(t, child.folder)
    ensures Wf(t') && Grows(t, t') && t'.tx == t.tx
    ensures t'.next == t.next + 1 && t'.nodes.Keys == t.nodes.Keys + {t.next}
    ensures t'.nodes[t.next] == child
    ensures t'.nodes[id].folder == Folders.Fill(t.nodes[id].folder, name, t.next)
  {
    var t1 := AddNode(t, child);
    assert ChildrenOk(t, t.nodes[id].folder);
    var f := Folders.Fill(t.nodes[id].folder, name, t.next);
    FillChildrenOk(t, t1, t.nodes[id].folder, name);
    WithFolderWf(t1, id, f);
    GrowsTrans(t, t1, WithFolder(t1, id, f));
    WithFolder(t1, id, f)
  }

  /** A cache miss: `get_resource(name)`, `_get_handler(segment, resource)`,
      then the child's `parent` and `name` are set and the slot is filled. */
  function Instantiate(t: Tree, id: HandlerId, name: Name): (l: Lookup)
    requires Wf(t) && id in t.nodes
    ensures Wf(l.tree) && Grows(t, l.tree) && l.tree.tx == t.tx
    ensures l.result.Ok? ==> l.result.value == t.next && l.tree.next == t.next + 1
    ensures l.result.Ok? ==> l.tree.nodes.Keys == t.nodes.Keys + {t.next}
    ensures l.result.Ok? ==> l.tree.nodes[t.next].parent == Some(id) && l.tree.nodes[t.next].name == name
    ensures l.result.Ok? ==> l.tree.nodes[id].folder == Folders.Fill(t.nodes[id].folder, name, t.next)
    ensures l.result.Err? ==> l.tree == t
    ensures l.result.Err? ==> l.result.error == AttributeError || l.result.error == ResourceError
  {
    var node := t.nodes[id];
    if node.resource.None? then Lookup(t, Err(AttributeError))
    else
      match ChildResource(t.store, node.resource.value, name)
      case Err(e) => Lookup(t, Err(e))
      case Ok(r) =>
        if r !in t.store then Lookup(t, Err(ResourceError))
        else
          var k := ChildKind(node.kind, name, t.store[r].FolderResource?);
          var child := Construct(t, k, r, id, name, node.depth + 1);
          Lookup(Adopt(t, id, name, child), Ok(t.next))
  }

  /** Reloads handler `h` from a resource whose modification time is now
      `mtime`: the handler is re-stamped and a folder re-reads its backing
      names, dropping every staged change. */
  function Reload(t: Tree, h: HandlerId, mtime: Option<Time>): (t': Tree)
    requires Wf(t) && h in t.nodes && t.nodes[h].resource.Some?
    ensures Wf(t') && Grows(t, t') && t'.nodes.Keys == t.nodes.Keys
    ensures t'.next == t.next && t'.tx == t.tx
    ensures t'.nodes[h].timestamp == mtime
    ensures IsFolderKind(t.nodes[h].kind) ==> t'.nodes[h].folder.added == map[] && t'.nodes[h].folder.removed == {}
    ensures forall k :: k in t.nodes && k != h ==> t'.nodes[k] == t.nodes[k]
  {
    var node := t.nodes[h];
    var r := node.resource.value;
    var names := if r in t.store && t.store[r].FolderResource? then t.store[r].children.Keys else {};
    var f := if IsFolderKind(node.kind) then Folders.Load(names) else node.folder;
    assert ChildrenOk(t, node.folder);
    ReplaceNodeWf(t, h, node.(folder := f, timestamp := mtime), t.tx);
    t.(nodes := t.nodes[h := node.(folder := f, timestamp := mtime)])
  }

  /** A cache hit: the child is reloaded in place when it is out of date. */
  function Refresh(t: Tree, h: HandlerId): (l: Lookup)
    requires Wf(t) && h in t.nodes
    ensures Wf(l.tree) && Grows(t, l.tree) && l.tree.nodes.Keys == t.nodes.Keys
    ensures l.tree.next == t.next && l.tree.tx == t.tx
    ensures l.result.Ok? ==> l.result.value == h
    ensures l.result.Err? ==> l.tree == t
    ensures l.result.Err? ==> l.result.error == AttributeError || l.result.error == ResourceError
  {
    var node := t.nodes[h];
    var stale := Handlers.Handler<()>.Handler(node.resource, node.timestamp, None);
    if node.timestamp.None? then Lookup(t, Ok(h))
    else if node.resource.None? then Lookup(t, Err(AttributeError))
    else
      match MTime(t.store, node.resource.value)
      case Err(e) => Lookup(t, Err(e))
      case Ok(mtime) =>
        match Handlers.IsOutdated(stale, mtime)
        case Err(e) => Lookup(t, Err(e))
        case Ok(outdated) =>
          if outdated then Lookup(Reload(t, h, mtime), Ok(h)) else Lookup(t, Ok(h))
  }

  /** `get_handler(path)` on handler `id`. Only folders answer it; on any
      other handler the method is missing. */
  function GetHandler(t: Tree, id: HandlerId, path: seq<Name>): (l: Lookup)
    requires Wf(t) && id in t.nodes
    ensures Wf(l.tree) && Grows(t, l.tree) && l.tree.tx == t.tx
    ensures l.result.Ok? ==> l.result.value in l.tree.nodes
    decreases |path|, 0
  {
    var node := t.nodes[id];
    if !IsFolderKind(node.kind) then Lookup(t, Err(AttributeError))
    else if |path| == 0 then Lookup(t, Ok(id))
    else if path[0] == ".." then
      match node.parent
      case None => Lookup(t, Err(ValueError))
      case Some(p) =>
        assert ParentOk(t, id);
        GetHandler(t, p, path[1..])
    else
      var name := path[0];
      var step := Folders.Resolve(node.folder, name);
      match step.outcome
      case Virtual =>
        WithFolderWf(t, id, step.folder);
        Lookup(WithFolder(t, id, step.folder), Err(LookupError))
      case Staged(h) => Continue(t, t, h, path[1..])
      case Cached(h) =>
        var l := Refresh(t, h);
        if l.result.Err? then l else Continue(t, l.tree, h, path[1..])
      case Unresolved =>
        var l := Instantiate(t, id, name);
        if l.result.Err? then l else Continue(t, l.tree, l.result.value, path[1..])
  }

  /** The rest of the path, from the handler one segment resolved to. */
  function Continue(t0: Tree, t: Tree, h: HandlerId, rest: seq<Name>): (l: Lookup)
    requires Wf(t) && h in t.nodes && Grows(t0, t) && t.tx == t0.tx
    ensures Wf(l.tree) && Grows(t0, l.tree) && l.tree.tx == t0.tx
    ensures l.result.Ok? ==> l.result.value in l.tree.nodes
    decreases |rest|, 1
  {
    if |rest| == 0 then Lookup(t, Ok(h))
    else
      var l := GetHandler(t, h, rest);
      GrowsTrans(t0, t, l.tree);
      l
  }

  /** A path that goes up one level and then on. */
  lemma DotDotAtRootFails(t: Tree, id: HandlerId, rest: seq<Name>)
    requires Wf(t) && id in t.nodes && IsFolderKind(t.nodes[id].kind) && t.nodes[id].parent.None?
    ensures GetHandler(t, id, [".."] + rest) == Lookup(t, Err(ValueError))
  {
  }

  lemma DotDotGoesUp(t: Tree, id: HandlerId, rest: seq<Name>)
    requires Wf(t) && id in t.nodes && IsFolderKind(t.nodes[id].kind) && t.nodes[id].parent.Some?
    ensures t.nodes[id].parent.value in t.nodes
    ensures GetHandler(t, id, [".."] + rest) == GetHandler(t, t.nodes[id].parent.value, rest)
  {
    assert ParentOk(t, id);
    assert ([".."] + rest)[1..] == rest;
  }

  lemma EmptyPathIsSelf(t: Tree, id: HandlerId)
    requires Wf(t) && id in t.nodes
    ensures GetHandler(t, id, []) == Lookup(t, if IsFolderKind(t.nodes[id].kind) then Ok(id) else Err(AttributeError))
  {
  }

  /** Resolving `p + q` resolves `p` first and then `q` from wherever `p`
      led, in the tree `p`'s resolution left behind: segments are taken
      strictly left to right. */
  lemma {:induction false} PathComposes(t: Tree, id: HandlerId, p: seq<Name>, q: seq<Name>)
    requires Wf(t) && id in t.nodes && |q| > 0
    ensures var l := GetHandler(t, id, p);
            GetHandler(t, id, p + q) == if l.result.Err? then l else GetHandler(l.tree, l.result.value, q)
    decreases |p|, 2
  {
    if |p| == 0 {
      assert p + q == q;
    } else if IsFolderKind(t.nodes[id].kind) {
      if p[0] == ".." {
        assert (p + q)[0] == p[0] && (p + q)[1..] == p[1..] + q;
        if t.nodes[id].parent.Some? {
          assert ParentOk(t, id);
          PathComposes(t, t.nodes[id].parent.value, p[1..], q);
        }
      } else {
        SegmentComposes(t, id, p, q);
      }
    }
  }

  /** `PathComposes` when `p` starts with a name of folder `id`. */
  lemma {:induction false} SegmentComposes(t: Tree, id: HandlerId, p: seq<Name>, q: seq<Name>)
    requires Wf(t) && id in t.nodes && IsFolderKind(t.nodes[id].kind)
    requires |p| > 0 && p[0] != ".." && |q| > 0
    ensures var l := GetHandler(t, id, p);
            GetHandler(t, id, p + q) == if l.result.Err? then l else GetHandler(l.tree, l.result.value, q)
    decreases |p|, 1
  {
    assert (p + q)[0] == p[0] && (p + q)[1..] == p[1..] + q;
    match Folders.Resolve(t.nodes[id].folder, p[0]).outcome
    case Virtual =>
    case Staged(h) =>
      if |p| > 1 {
        PathComposes(t, h, p[1..], q);
      }
    case Cached(h) =>
      CachedComposes(t, id, p, q, h);
    case Unresolved =>
      UnresolvedComposes(t, id, p, q);
  }

  lemma {:induction false} CachedComposes(t: Tree, id: HandlerId, p: seq<Name>, q: seq<Name>, h: HandlerId)
    requires Wf(t) && id in t.nodes && IsFolderKind(t.nodes[id].kind)
    requires |p| > 0 && p[0] != ".." && |q| > 0 && (p + q)[1..] == p[1..] + q && (p + q)[0] == p[0]
    requires Folders.Resolve(t.nodes[id].folder, p[0]).outcome == Folders.Cached(h)
    ensures var l := GetHandler(t, id, p);
            GetHandler(t, id, p + q) == if l.result.Err? then l else GetHandler(l.tree, l.result.value, q)
    decreases |p|, 0
  {
    var l := Refresh(t, h);
    if l.result.Ok? && |p| > 1 {
      PathComposes(l.tree, h, p[1..], q);
    }
  }

  lemma {:induction false} UnresolvedComposes(t: Tree, id: HandlerId, p: seq<Name>, q: seq<Name>)
    requires Wf(t) && id in t.nodes && IsFolderKind(t.nodes[id].kind)
    requires |p| > 0 && p[0] != ".." && |q| > 0 && (p + q)[1..] == p[1..] + q && (p + q)[0] == p[0]
    requires Folders.Resolve(t.nodes[id].folder, p[0]).outcome == Folders.Unresolved
    ensures var l := GetHandler(t, id, p);
            GetHandler(t, id, p + q) == if l.result.Err? then l else GetHandler(l.tree, l.result.value, q)
    decreases |p|, 0
  {
    var l := Instantiate(t, id, p[0]);
    if l.result.Ok? && |p| > 1 {
      PathComposes(l.tree, l.result.value, p[1..], q);
    }
  }

  /** An added name resolves to its staged handler, whatever the cache or
      the removed overlay say, and the lookup changes nothing. */
  lemma StagedWins(t: Tree, id: HandlerId, name: Name)
    requires Wf(t) && id in t.nodes && IsFolderKind(t.nodes[id].kind)
    requires name != ".." && name in t.nodes[id].folder.added
    ensures GetHandler(t, id, [name]) == Lookup(t, Ok(t.nodes[id].folder.added[name]))
  {
  }

  /** A visible name with an empty cache slot is instantiated: the new
      handler is a child of the folder, carries the name, and now fills the
      slot. */
  lemma MissInstantiates(t: Tree, id: HandlerId, name: Name)
    requires Wf(t) && id in t.nodes && IsFolderKind(t.nodes[id].kind) && name != ".."
    requires Folders.Resolve(t.nodes[id].folder, name).outcome == Folders.Unresolved
    requires GetHandler(t, id, [name]).result.Ok?
    ensures var l := GetHandler(t, id, [name]);
            && l.result.value == t.next && l.tree.nodes.Keys == t.nodes.Keys + {t.next}
            && l.tree.nodes[t.next].parent == Some(id) && l.tree.nodes[t.next].name == name
            && Folders.Resolve(l.tree.nodes[id].folder, name).outcome == Folders.Cached(t.next)
  {
    assert [name][1..] == [];
    var l := Instantiate(t, id, name);
    if l.result.Ok? {
      assert GetHandler(t, id, [name]) == Continue(t, l.tree, l.result.value, []);
    }
  }

  /** A removed name that was not staged again goes to virtual resolution:
      the lookup fails with LookupError and drops the name's cache slot. */
  lemma RemovedFallsToVirtual(t: Tree, id: HandlerId, name: Name)
    requires Wf(t) && id in t.nodes && IsFolderKind(t.nodes[id].kind) && name != ".."
    requires name !in t.nodes[id].folder.added && name in t.nodes[id].folder.removed
    ensures var f := t.nodes[id].folder;
            GetHandler(t, id, [name]) == Lookup(WithFolder(t, id, f.(cache := f.cache - {name})), Err(LookupError))
  {
  }

  // ------------------------------------------------------------------
  // Staging by path
  // ------------------------------------------------------------------

  /** `set_changed` on one handler of the tree. */
  function MarkChanged(t: Tree, id: HandlerId, now: Time): (t': Tree)
    requires Wf(t) && id in t.nodes
    ensures Wf(t') && Grows(t, t') && t'.nodes.Keys == t.nodes.Keys && t'.next == t.next
    ensures forall k :: k in t.nodes ==> t'.nodes[k].folder == t.nodes[k].folder
    ensures t.nodes[id].resource.None? ==> t' == t
    ensures t.nodes[id].resource.Some? ==> t'.nodes[id].timestamp == Some(now)
    ensures t.nodes[id].resource.Some? ==> t'.tx.pending == t.tx.pending + {id} && t'.tx.locked == t.tx.locked
  {
    var node := t.nodes[id];
    var (h, tx) := Handlers.SetChanged(Handlers.Handler<()>.Handler(node.resource, node.timestamp, None), id, t.tx, now);
    if node.resource.None? then t
    else
      assert ChildrenOk(t, node.folder);
      ReplaceNodeWf(t, id, node.(timestamp := h.timestamp), tx);
      t.(nodes := t.nodes[id := node.(timestamp := h.timestamp)], tx := tx)
  }

  /** Stages `h` under `name` in container `c`, already marked changed. */
  function Stage(t: Tree, c: HandlerId, name: Name, h: HandlerId): (l: Lookup)
    requires Wf(t) && c in t.nodes && h in t.nodes
    ensures Wf(l.tree) && Grows(t, l.tree)
    ensures l.result.Ok? <==> IsFolderKind(t.nodes[c].kind) && !Folders.HasHandler(t.nodes[c].folder, name)
    ensures l.result.Err? ==> l.tree == t
    ensures l.result.Ok? ==> l.result.value == c && l.tree == WithFolder(t, c, Folders.SetEntry(t.nodes[c].folder, name, h).value)
    ensures l.result.Ok? ==> Folders.Resolve(l.tree.nodes[c].folder, name).outcome == Folders.Staged(h)
  {
    if !IsFolderKind(t.nodes[c].kind) then Lookup(t, Err(AttributeError))
    else
      match Folders.SetEntry(t.nodes[c].folder, name, h)
      case Err(e) => Lookup(t, Err(e))
      case Ok(f) =>
        assert ChildrenOk(t, t.nodes[c].folder);
        WithFolderWf(t, c, f);
        Folders.SetThenResolve(t.nodes[c].folder, name, h);
        Lookup(WithFolder(t, c, f), Ok(c))
  }

  /** `set_handler(path, h)` on folder `id`: the container named by all but
      the last segment is marked changed, then `h` is staged there under
      the last segment unless a handler of that name is already visible.
      The result is the container. The handler `h` is one the arena holds. */
  function SetHandler(t: Tree, id: HandlerId, path: seq<Name>, h: HandlerId, now: Time): (l: Lookup)
    requires Wf(t) && id in t.nodes && h in t.nodes
    ensures Wf(l.tree) && Grows(t, l.tree)
    ensures |path| == 0 ==> l == Lookup(t, Err(IndexError))
    ensures l.result.Ok? ==> l.result.value in l.tree.nodes && IsFolderKind(l.tree.nodes[l.result.value].kind)
    ensures l.result.Ok? ==> Folders.Resolve(l.tree.nodes[l.result.value].folder, path[|path| - 1]).outcome == Folders.Staged(h)
  {
    if |path| == 0 then Lookup(t, Err(IndexError))
    else
      var l := GetHandler(t, id, path[..|path| - 1]);
      if l.result.Err? then l
      else
        var t1 := MarkChanged(l.tree, l.result.value, now);
        var l2 := Stage(t1, l.result.value, path[|path| - 1], h);
        GrowsTrans(t, l.tree, t1);
        GrowsTrans(t, t1, l2.tree);
        l2
  }

  /** `del_handler(path)` on folder `id`: `id` itself is marked changed
      first, then the last segment is marked removed in the container named
      by the rest, provided a handler of that name is visible there. The
      result is the container. */
  function DelHandler(t: Tree, id: HandlerId, path: seq<Name>, now: Time): (l: Lookup)
    requires Wf(t) && id in t.nodes
    ensures Wf(l.tree) && Grows(t, l.tree)
    ensures |path| == 0 ==> l == Lookup(MarkChanged(t, id, now), Err(IndexError))
    ensures l.result.Ok? ==> l.result.value in l.tree.nodes && IsFolderKind(l.tree.nodes[l.result.value].kind)
    ensures l.result.Ok? ==> Folders.Resolve(l.tree.nodes[l.result.value].folder, path[|path| - 1]).outcome == Folders.Virtual
  {
    var t0 := MarkChanged(t, id, now);
    if |path| == 0 then Lookup(t0, Err(IndexError))
    else
      var name := path[|path| - 1];
      var l := GetHandler(t0, id, path[..|path| - 1]);
      GrowsTrans(t, t0, l.tree);
      if l.result.Err? then l
      else
        var c := l.result.value;
        if !IsFolderKind(l.tree.nodes[c].kind) then Lookup(l.tree, Err(AttributeError))
        else
          match Folders.DelEntry(l.tree.nodes[c].folder, name)
          case Err(e) => Lookup(l.tree, Err(e))
          case Ok(f) =>
            assert ChildrenOk(l.tree, l.tree.nodes[c].folder);
            WithFolderWf(l.tree, c, f);
            Folders.DelThenResolve(l.tree.nodes[c].folder, name);
            GrowsTrans(t, l.tree, WithFolder(l.tree, c, f));
            Lookup(WithFolder(l.tree, c, f), Ok(c))
  }

  /** `get_handler_names(path)`: the names visible in the folder `path`
      resolves to. */
  function GetHandlerNames(t: Tree, id: HandlerId, path: seq<Name>): (a: Answer<set<Name>>)
    requires Wf(t) && id in t.nodes
    ensures Wf(a.tree) && Grows(t, a.tree)
    ensures a.tree == GetHandler(t, id, path).tree
    ensures a.result.Ok? <==> GetHandler(t, id, path).result.Ok?
                              && IsFolderKind(a.tree.nodes[GetHandler(t, id, path).result.value].kind)
    ensures a.result.Ok? ==> a.result.value == Folders.HandlerNames(a.tree.nodes[GetHandler(t, id, path).result.value].folder)
  {
    var l := GetHandler(t, id, path);
    if l.result.Err? then Answer(l.tree, Err(l.result.error))
    else
      var c := l.tree.nodes[l.result.value];
      if !IsFolderKind(c.kind) then Answer(l.tree, Err(AttributeError))
      else Answer(l.tree, Ok(Folders.HandlerNames(c.folder)))
  }

  /** `has_handler(path)`: whether the last segment is a visible name of the
      container named by the rest. */
  function HasHandler(t: Tree, id: HandlerId, path: seq<Name>): (a: Answer<bool>)
    requires Wf(t) && id in t.nodes
    ensures Wf(a.tree) && Grows(t, a.tree)
    ensures |path| == 0 ==> a == Answer(t, Err(IndexError))
    ensures |path| > 0 ==> a.tree == GetHandlerNames(t, id, path[..|path| - 1]).tree
    ensures |path| > 0 ==> var names := GetHandlerNames(t, id, path[..|path| - 1]).result;
              a.result == if names.Ok? then Ok(path[|path| - 1] in names.value) else Err(names.error)
  {
    if |path| == 0 then Answer(t, Err(IndexError))
    else
      var names := GetHandlerNames(t, id, path[..|path| - 1]);
      if names.result.Err? then Answer(names.tree, Err(names.result.error))
      else Answer(names.tree, Ok(path[|path| - 1] in names.result.value))
  }

  /** Staging then looking a name up, one segment below folder `id`. */
  lemma SetThenGet(t: Tree, id: HandlerId, name: Name, h: HandlerId, now: Time)
    requires Wf(t) && id in t.nodes && h in t.nodes && IsFolderKind(t.nodes[id].kind) && name != ".."
    ensures SetHandler(t, id, [name], h, now).result.Ok? <==> !Folders.HasHandler(t.nodes[id].folder, name)
    ensures var l := SetHandler(t, id, [name], h, now);
            l.result.Ok? ==> l.result.value == id && GetHandler(l.tree, id, [name]) == Lookup(l.tree, Ok(h))
  {
    assert [name][..0] == [];
    var l := SetHandler(t, id, [name], h, now);
    if l.result.Ok? {
      StagedWins(l.tree, id, name);
    }
  }

  lemma DelThenGet(t: Tree, id: HandlerId, name: Name, now: Time)
    requires Wf(t) && id in t.nodes && IsFolderKind(t.nodes[id].kind) && name != ".."
    ensures DelHandler(t, id, [name], now).result.Ok? <==> Folders.HasHandler(t.nodes[id].folder, name)
    ensures var l := DelHandler(t, id, [name], now);
            l.result.Ok? ==> l.result.value == id && GetHandler(l.tree, id, [name]).result == Err(LookupError)
  {
    assert [name][..0] == [];
    var t0 := MarkChanged(t, id, now);
    EmptyPathIsSelf(t0, id);
    var l := DelHandler(t, id, [name], now);
    if l.result.Ok? {
      RemovedFallsToVirtual(l.tree, id, name);
    }
  }

  // ------------------------------------------------------------------
  // Acquisition and traversal
  // ------------------------------------------------------------------

  /** The handler and its ancestors, nearest first. */
  ghost function Ancestors(t: Tree, id: HandlerId): (c: seq<HandlerId>)
    requires Wf(t) && id in t.nodes
    ensures |c| >= 1 && c[0] == id
    ensures forall i :: 0 <= i < |c| ==> c[i] in t.nodes
    decreases t.nodes[id].depth
  {
    match t.nodes[id].parent
    case None => [id]
    case Some(p) =>
      assert ParentOk(t, id);
      [id] + Ancestors(t, p)
  }

  /** A folder on which `has_handler(name)` holds. */
  ghost predicate Provides(t: Tree, a: HandlerId, name: Name)
    requires a in t.nodes
  {
    IsFolderKind(t.nodes[a].kind) && name in Folders.HandlerNames(t.nodes[a].folder)
  }

  /** `acquire(name)`: a folder that has the name answers it; otherwise the
      question goes to the parent, and the root fails with LookupError. */
  function Acquire(t: Tree, id: HandlerId, name: Name): (l: Lookup)
    requires Wf(t) && id in t.nodes
    ensures Wf(l.tree) && Grows(t, l.tree)
    ensures l.result.Ok? ==> l.result.value in l.tree.nodes
    decreases t.nodes[id].depth
  {
    var node := t.nodes[id];
    if IsFolderKind(node.kind) && name in Folders.HandlerNames(node.folder) then GetHandler(t, id, [name])
    else
      match node.parent
      case None => Lookup(t, Err(LookupError))
      case Some(p) =>
        assert ParentOk(t, id);
        Acquire(t, p, name)
  }

  lemma AncestorsStep(t: Tree, id: HandlerId)
    requires Wf(t) && id in t.nodes && t.nodes[id].parent.Some?
    ensures t.nodes[id].parent.value in t.nodes
    ensures |Ancestors(t, id)| == |Ancestors(t, t.nodes[id].parent.value)| + 1
    ensures forall j :: 0 <= j < |Ancestors(t, t.nodes[id].parent.value)| ==>
              Ancestors(t, id)[j + 1] == Ancestors(t, t.nodes[id].parent.value)[j]
  {
    assert ParentOk(t, id);
    assert Ancestors(t, id) == [id] + Ancestors(t, t.nodes[id].parent.value);
  }

  /** A folder that has the name answers `acquire` itself. */
  lemma AcquireHere(t: Tree, id: HandlerId, name: Name)
    requires Wf(t) && id in t.nodes && Provides(t, id, name)
    ensures Acquire(t, id, name) == GetHandler(t, id, [name])
  {
  }

  /** A handler that does not have the name passes `acquire` to its
      parent; the root fails. */
  lemma AcquireUp(t: Tree, id: HandlerId, name: Name)
    requires Wf(t) && id in t.nodes && !Provides(t, id, name)
    ensures t.nodes[id].parent.None? ==> Acquire(t, id, name) == Lookup(t, Err(LookupError))
    ensures t.nodes[id].parent.Some? ==>
              t.nodes[id].parent.value in t.nodes && Acquire(t, id, name) == Acquire(t, t.nodes[id].parent.value, name)
  {
    assert ParentOk(t, id);
  }

  /** The nearest handler on the ancestor chain that has the name. */
  ghost function Provider(t: Tree, id: HandlerId, name: Name): Option<HandlerId>
    requires Wf(t) && id in t.nodes
    decreases t.nodes[id].depth
  {
    if Provides(t, id, name) then Some(id)
    else
      match t.nodes[id].parent
      case None => None
      case Some(p) =>
        assert ParentOk(t, id);
        Provider(t, p, name)
  }

  /** `acquire` is answered by the nearest provider, and fails with
      LookupError when there is none. */
  lemma {:induction false} AcquireMeansProvider(t: Tree, id: HandlerId, name: Name)
    requires Wf(t) && id in t.nodes
    ensures Provider(t, id, name).None? ==> Acquire(t, id, name) == Lookup(t, Err(LookupError))
    ensures Provider(t, id, name).Some? ==>
              Provider(t, id, name).value in t.nodes
              && Acquire(t, id, name) == GetHandler(t, Provider(t, id, name).value, [name])
    decreases t.nodes[id].depth
  {
    if Provides(t, id, name) {
      AcquireHere(t, id, name);
    } else {
      AcquireUp(t, id, name);
      if t.nodes[id].parent.Some? {
        AcquireMeansProvider(t, t.nodes[id].parent.value, name);
      }
    }
  }

  /** There is no provider exactly when no handler on the chain has the
      name. */
  lemma {:induction false} NoProvider(t: Tree, id: HandlerId, name: Name)
    requires Wf(t) && id in t.nodes
    ensures Provider(t, id, name).None? <==>
              forall i :: 0 <= i < |Ancestors(t, id)| ==> !Provides(t, Ancestors(t, id)[i], name)
    decreases t.nodes[id].depth
  {
    if Provides(t, id, name) {
      assert Ancestors(t, id)[0] == id;
    } else if t.nodes[id].parent.None? {
      assert Ancestors(t, id) == [id];
    } else {
      var p := t.nodes[id].parent.value;
      AncestorsStep(t, id);
      NoProvider(t, p, name);
      assert Provider(t, id, name) == Provider(t, p, name);
      if Provider(t, p, name).None? {
        forall i | 0 <= i < |Ancestors(t, id)|
          ensures !Provides(t, Ancestors(t, id)[i], name)
        {
          if i > 0 {
            assert Ancestors(t, id)[i] == Ancestors(t, p)[i - 1];
          }
        }
      } else {
        var j :| 0 <= j < |Ancestors(t, p)| && Provides(t, Ancestors(t, p)[j], name);
        assert Ancestors(t, id)[j + 1] == Ancestors(t, p)[j];
      }
    }
  }

  /** The provider is the first handler on the chain that has the name. */
  lemma {:induction false} NearestProvider(t: Tree, id: HandlerId, name: Name, i: nat)
    requires Wf(t) && id in t.nodes
    requires i < |Ancestors(t, id)| && Provides(t, Ancestors(t, id)[i], name)
    requires forall j :: 0 <= j < i ==> !Provides(t, Ancestors(t, id)[j], name)
    ensures Provider(t, id, name) == Some(Ancestors(t, id)[i])
    decreases t.nodes[id].depth
  {
    if i > 0 {
      assert !Provides(t, Ancestors(t, id)[0], name);
      assert t.nodes[id].parent.Some?;
      var p := t.nodes[id].parent.value;
      AncestorsStep(t, id);
      NearestProvider(t, p, name, i - 1);
    }
  }

  /** `acquire` fails with LookupError when no handler on the ancestor
      chain has the name; `AcquireLookupErrorMeansNoProvider` is the
      converse. */
  lemma AcquireFailsWhenNoneProvides(t: Tree, id: HandlerId, name: Name)
    requires Wf(t) && id in t.nodes
    requires forall i :: 0 <= i < |Ancestors(t, id)| ==> !Provides(t, Ancestors(t, id)[i], name)
    ensures Acquire(t, id, name) == Lookup(t, Err(LookupError))
  {
    NoProvider(t, id, name);
    AcquireMeansProvider(t, id, name);
  }

  /** The provider, when there is one, is a handler of the arena that has
      the name. */
  lemma {:induction false} ProviderProvides(t: Tree, id: HandlerId, name: Name)
    requires Wf(t) && id in t.nodes
    ensures Provider(t, id, name).Some? ==>
              Provider(t, id, name).value in t.nodes && Provides(t, Provider(t, id, name).value, name)
    decreases t.nodes[id].depth
  {
    if !Provides(t, id, name) && t.nodes[id].parent.Some? {
      assert ParentOk(t, id);
      ProviderProvides(t, t.nodes[id].parent.value, name);
    }
  }

  /** A folder that has the name never answers `get_handler(name)` with
      LookupError: the name resolves through the overlay or the cache, so
      only attribute, store and path errors remain. */
  lemma ProviderLookupIsNotLookupError(t: Tree, p: HandlerId, name: Name)
    requires Wf(t) && p in t.nodes && Provides(t, p, name)
    ensures GetHandler(t, p, [name]).result != Err(LookupError)
  {
    assert [name][1..] == [];
    if name == ".." {
      if t.nodes[p].parent.Some? {
        assert ParentOk(t, p);
        EmptyPathIsSelf(t, t.nodes[p].parent.value);
      }
    } else {
      var step := Folders.Resolve(t.nodes[p].folder, name);
      match step.outcome
      case Staged(h) =>
        assert GetHandler(t, p, [name]) == Continue(t, t, h, []);
      case Cached(h) =>
        var l := Refresh(t, h);
        if l.result.Ok? {
          assert GetHandler(t, p, [name]) == Continue(t, l.tree, h, []);
        }
      case Unresolved =>
        var l := Instantiate(t, p, name);
        if l.result.Ok? {
          assert GetHandler(t, p, [name]) == Continue(t, l.tree, l.result.value, []);
        }
    }
  }

  /** `acquire` fails with LookupError only when no handler on the ancestor
      chain has the name. */
  lemma AcquireLookupErrorMeansNoProvider(t: Tree, id: HandlerId, name: Name)
    requires Wf(t) && id in t.nodes
    requires Acquire(t, id, name).result == Err(LookupError)
    ensures forall i :: 0 <= i < |Ancestors(t, id)| ==> !Provides(t, Ancestors(t, id)[i], name)
  {
    AcquireMeansProvider(t, id, name);
    ProviderProvides(t, id, name);
    var pr := Provider(t, id, name);
    if pr.Some? {
      ProviderLookupIsNotLookupError(t, pr.value, name);
    }
    NoProvider(t, id, name);
  }

  /** `acquire` answers from the nearest handler on the ancestor chain that
      has the name. */
  lemma AcquireFindsNearest(t: Tree, id: HandlerId, name: Name, i: nat)
    requires Wf(t) && id in t.nodes
    requires i < |Ancestors(t, id)| && Provides(t, Ancestors(t, id)[i], name)
    requires forall j :: 0 <= j < i ==> !Provides(t, Ancestors(t, id)[j], name)
    ensures Acquire(t, id, name) == GetHandler(t, Ancestors(t, id)[i], [name])
  {
    NearestProvider(t, id, name, i);
    AcquireMeansProvider(t, id, name);
  }

  /** The choices a traversal makes where the source leaves the order
      open: for a folder, the order in which its visible names are visited
      and, for each of them, the choices made below the handler it names. */
  datatype Trace = Trace(names: seq<Name>, subs: seq<Trace>)

  /** `get_handler(name)` on `id`, stated for every tree so that the
      reference traversal below needs no preconditions: on a well-formed
      tree holding `id` it is `GetHandler`. */
  ghost function Look(t: Tree, id: HandlerId, name: Name): Lookup {
    if Wf(t) && id in t.nodes then GetHandler(t, id, [name]) else Lookup(t, Err(AttributeError))
  }

  /** `xs` lists the elements of `s`, each once. */
  ghost predicate Lists(xs: seq<Name>, s: set<Name>) {
    multiset(xs) == multiset(s)
  }

  /** The reference traversal: what `traverse()` yields from `id` when the
      names come in the order `tr` gives and `look` answers
      `get_handler(name)`, or None when `tr` does not list every visible
      name exactly once. `fuel` bounds the depth to which folders are
      expanded. `Traverse` walks with `look` being `Look`; the lemmas about
      the walk hold whatever `look` is. */
  ghost function Run(look: (Tree, HandlerId, Name) -> Lookup, t: Tree, id: HandlerId, fuel: nat, tr: Trace): (r: Option<Walk>)
    ensures r.Some? && r.value.result.Ok? ==> |r.value.result.value| >= 1 && r.value.result.value[0] == id
    decreases fuel, 0, 0
  {
    if id !in t.nodes || !IsFolderKind(t.nodes[id].kind) || fuel == 0 then Some(Walk(t, Ok([id])))
    else if |tr.subs| != |tr.names| || !Lists(tr.names, Folders.HandlerNames(t.nodes[id].folder)) then None
    else RunSteps(look, t, id, fuel - 1, tr.names, tr.subs)
  }

  /** Folder `id` itself, then the walks of `names` in order, each with the
      fuel `below` and appended to what came before; the first error ends
      the traversal. */
  ghost function RunSteps(look: (Tree, HandlerId, Name) -> Lookup, t: Tree, id: HandlerId, below: nat, names: seq<Name>, subs: seq<Trace>): (r: Option<Walk>)
    requires |subs| == |names|
    ensures r.Some? && r.value.result.Ok? ==> |r.value.result.value| >= 1 && r.value.result.value[0] == id
    decreases below, 2, |names|
  {
    if names == [] then Some(Walk(t, Ok([id])))
    else
      var k := |names| - 1;
      match RunSteps(look, t, id, below, names[..k], subs[..k])
      case None => None
      case Some(before) =>
        if before.result.Err? then Some(before)
        else
          match VisitRun(look, before.tree, id, names[k], below, subs[k])
          case None => None
          case Some(sub) =>
            if sub.result.Err? then Some(sub)
            else Some(Walk(sub.tree, Ok(before.result.value + sub.result.value)))
  }

  /** One name of a traversed folder: the handler `get_handler(name)`
      returns, walked in turn with the fuel `below`. */
  ghost function VisitRun(look: (Tree, HandlerId, Name) -> Lookup, t: Tree, id: HandlerId, name: Name, below: nat, sub: Trace): (r: Option<Walk>)
    ensures r.Some? && r.value.result.Ok? ==>
              look(t, id, name).result.Ok? && |r.value.result.value| >= 1 &&
              r.value.result.value[0] == look(t, id, name).result.value
    decreases below, 1, 0
  {
    var l := look(t, id, name);
    if l.result.Err? then Some(Walk(l.tree, Err(l.result.error)))
    else Run(look, l.tree, l.result.value, below, sub)
  }

  lemma VisitRunUnfolds(t: Tree, id: HandlerId, name: Name, below: nat, sub: Trace)
    requires Wf(t) && id in t.nodes
    ensures Look(t, id, name) == GetHandler(t, id, [name])
    ensures GetHandler(t, id, [name]).result.Err? ==>
              VisitRun(Look, t, id, name, below, sub) ==
              Some(Walk(GetHandler(t, id, [name]).tree, Err(GetHandler(t, id, [name]).result.error)))
    ensures GetHandler(t, id, [name]).result.Ok? ==>
              VisitRun(Look, t, id, name, below, sub) ==
              Run(Look, GetHandler(t, id, [name]).tree, GetHandler(t, id, [name]).result.value, below, sub)
  {
  }

  /** One more name extends the walk by that name's walk, or ends it with
      that walk's error. */
  lemma RunStepsSnoc(look: (Tree, HandlerId, Name) -> Lookup, t: Tree, id: HandlerId, below: nat, names: seq<Name>, subs: seq<Trace>,
                     name: Name, sub: Trace, before: Walk, v: Walk)
    requires |subs| == |names|
    requires RunSteps(look, t, id, below, names, subs) == Some(before) && before.result.Ok?
    requires VisitRun(look, before.tree, id, name, below, sub) == Some(v)
    ensures RunSteps(look, t, id, below, names + [name], subs + [sub]) ==
              if v.result.Err? then Some(v) else Some(Walk(v.tree, Ok(before.result.value + v.result.value)))
  {
    assert (names + [name])[..|names|] == names && (subs + [sub])[..|subs|] == subs;
  }

  /** A successful walk of some names is the successful walk of all but
      the last, followed by the last name's successful walk. */
  lemma RunStepsLast(look: (Tree, HandlerId, Name) -> Lookup, t: Tree, id: HandlerId, below: nat, names: seq<Name>, subs: seq<Trace>)
    requires |subs| == |names| && names != []
    requires RunSteps(look, t, id, below, names, subs).Some? && RunSteps(look, t, id, below, names, subs).value.result.Ok?
    ensures var k := |names| - 1;
            var before := RunSteps(look, t, id, below, names[..k], subs[..k]);
            && before.Some? && before.value.result.Ok?
            && VisitRun(look, before.value.tree, id, names[k], below, subs[k]).Some?
            && VisitRun(look, before.value.tree, id, names[k], below, subs[k]).value.result.Ok?
            && RunSteps(look, t, id, below, names, subs).value.result.value
               == before.value.result.value + VisitRun(look, before.value.tree, id, names[k], below, subs[k]).value.result.value
  {
  }

  /** A folder with fuel left is walked name by name in the order given. */
  lemma RunFolder(look: (Tree, HandlerId, Name) -> Lookup, t: Tree, id: HandlerId, fuel: nat, below: nat, names: seq<Name>, subs: seq<Trace>)
    requires id in t.nodes && IsFolderKind(t.nodes[id].kind) && fuel > 0 && below == fuel - 1
    requires |subs| == |names| && Lists(names, Folders.HandlerNames(t.nodes[id].folder))
    ensures Run(look, t, id, fuel, Trace(names, subs)) == RunSteps(look, t, id, below, names, subs)
  {
  }

  /** A walk that ended in an error, completed with the names it never
      reached, is what the reference traversal gives. */
  lemma CompleteAfterError(look: (Tree, HandlerId, Name) -> Lookup, t: Tree, id: HandlerId, fuel: nat, below: nat, names: seq<Name>,
                           done: seq<Name>, subs: seq<Trace>, rest: seq<Name>) returns (tr: Trace)
    requires id in t.nodes && IsFolderKind(t.nodes[id].kind) && fuel > 0 && below == fuel - 1
    requires Lists(names, Folders.HandlerNames(t.nodes[id].folder)) && done + rest == names && |subs| == |done|
    requires RunSteps(look, t, id, below, done, subs).Some? && RunSteps(look, t, id, below, done, subs).value.result.Err?
    ensures Run(look, t, id, fuel, tr) == RunSteps(look, t, id, below, done, subs)
  {
    var blanks := seq(|rest|, _ => Trace([], []));
    ErrorEndsSteps(look, t, id, below, done, subs, rest, blanks);
    RunFolder(look, t, id, fuel, below, names, subs + blanks);
    tr := Trace(names, subs + blanks);
  }

  /** Names after an error are never looked at. */
  lemma {:induction false} ErrorEndsSteps(look: (Tree, HandlerId, Name) -> Lookup, t: Tree, id: HandlerId, below: nat, names: seq<Name>, subs: seq<Trace>,
                                          more: seq<Name>, moreSubs: seq<Trace>)
    requires |subs| == |names| && |moreSubs| == |more|
    requires RunSteps(look, t, id, below, names, subs).Some? && RunSteps(look, t, id, below, names, subs).value.result.Err?
    ensures RunSteps(look, t, id, below, names + more, subs + moreSubs) == RunSteps(look, t, id, below, names, subs)
    decreases |more|
  {
    if more == [] {
      assert names + more == names && subs + moreSubs == subs;
    } else {
      var k := |more| - 1;
      ErrorEndsSteps(look, t, id, below, names, subs, more[..k], moreSubs[..k]);
      assert (names + more)[..|names| + k] == names + more[..k];
      assert (subs + moreSubs)[..|subs| + k] == subs + moreSubs[..k];
    }
  }

  /** The visible names of a folder, in the order a traversal takes
      them: any order, each name once. */
  method ListNames(s: set<Name>) returns (xs: seq<Name>)
    ensures Lists(xs, s) && |xs| == |s|
  {
    xs := [];
    var todo := s;
    while todo != {}
      invariant multiset(xs) + multiset(todo) == multiset(s)
      invariant |xs| + |todo| == |s|
      decreases |todo|
    {
      var x :| x in todo;
      SplitOne(todo, x);
      xs := xs + [x];
      todo := todo - {x};
    }
  }

  lemma SplitOne(s: set<Name>, x: Name)
    requires x in s
    ensures multiset(s) == multiset(s - {x}) + multiset{x}
  {
    assert s == (s - {x}) + {x};
  }

  /** What a traversal of `id` begun on `t` has so far: `order` starts
      with `id` and lists handlers of the current tree. */
  ghost predicate Visited(t: Tree, tree: Tree, id: HandlerId, order: seq<HandlerId>) {
    && Wf(tree) && Grows(t, tree) && id in tree.nodes
    && |order| >= 1 && order[0] == id
    && (forall i :: 0 <= i < |order| ==> order[i] in tree.nodes)
  }

  lemma VisitedStep(t: Tree, tree: Tree, id: HandlerId, order: seq<HandlerId>, w: Walk)
    requires Visited(t, tree, id, order)
    requires Wf(w.tree) && Grows(tree, w.tree) && w.result.Ok? && |w.result.value| >= 1
    requires forall i :: 0 <= i < |w.result.value| ==> w.result.value[i] in w.tree.nodes
    ensures Visited(t, w.tree, id, order + w.result.value)
  {
    GrowsTrans(t, tree, w.tree);
    var o := order + w.result.value;
    forall i | 0 <= i < |o|
      ensures o[i] in w.tree.nodes
    {
      if i >= |order| {
        assert o[i] == w.result.value[i - |order|];
      }
    }
  }

  /** `traverse()`: the handler itself, then for each visible name the
      walk below the handler it names. The order of names within a folder
      is not fixed: `tr` records the order taken, and the walk is the
      reference traversal for that order. */
  method Traverse(t: Tree, id: HandlerId, fuel: nat) returns (w: Walk, ghost tr: Trace)
    requires Wf(t) && id in t.nodes
    ensures Run(Look, t, id, fuel, tr) == Some(w)
    ensures Wf(w.tree) && Grows(t, w.tree)
    ensures w.result.Ok? ==> forall i :: 0 <= i < |w.result.value| ==> w.result.value[i] in w.tree.nodes
    ensures (w.result.Ok? && IsFolderKind(t.nodes[id].kind) && fuel > 0) ==>
              |w.result.value| >= 1 + |Folders.HandlerNames(t.nodes[id].folder)|
    ensures !IsFolderKind(t.nodes[id].kind) ==> w == Walk(t, Ok([id]))
    decreases fuel, 0
  {
    if !IsFolderKind(t.nodes[id].kind) || fuel == 0 {
      return Walk(t, Ok([id])), Trace([], []);
    }
    var below: nat := fuel - 1;
    var names := ListNames(Folders.HandlerNames(t.nodes[id].folder));
    w, tr := WalkNames(t, id, fuel, below, names);
  }

  /** The names of folder `id`, in the order given, each walked with the
      fuel `below` and appended after the folder itself. */
  method WalkNames(t: Tree, id: HandlerId, fuel: nat, below: nat, names: seq<Name>) returns (w: Walk, ghost tr: Trace)
    requires Wf(t) && id in t.nodes && IsFolderKind(t.nodes[id].kind) && fuel > 0 && below == fuel - 1
    requires Lists(names, Folders.HandlerNames(t.nodes[id].folder))
    ensures Run(Look, t, id, fuel, tr) == Some(w)
    ensures Wf(w.tree) && Grows(t, w.tree)
    ensures w.result.Ok? ==> Visited(t, w.tree, id, w.result.value) && |w.result.value| >= 1 + |names|
    decreases below, 4
  {
    var tree := t;
    var order := [id];
    ghost var done: seq<Name> := [];
    ghost var subs: seq<Trace> := [];
    var rest := names;
    while rest != []
      invariant done + rest == names && |subs| == |done|
      invariant Visited(t, tree, id, order)
      invariant |order| >= 1 + |done|
      invariant RunSteps(Look, t, id, below, done, subs) == Some(Walk(tree, Ok(order)))
      decreases |rest|
    {
      var next;
      next, done, subs, tr := Turn(t, id, fuel, below, names, tree, order, done, subs, rest);
      if next.result.Err? {
        return next, tr;
      }
      order, tree, rest := next.result.value, next.tree, rest[1..];
    }
    assert done == names;
    RunFolder(Look, t, id, fuel, below, names, subs);
    return Walk(tree, Ok(order)), Trace(names, subs);
  }

  /** One turn of `WalkNames`: the first of the remaining names is walked;
      an error completes the trace and ends the traversal. */
  method Turn(t: Tree, id: HandlerId, fuel: nat, below: nat, names: seq<Name>, tree: Tree, order: seq<HandlerId>,
              ghost done: seq<Name>, ghost subs: seq<Trace>, rest: seq<Name>)
    returns (next: Walk, ghost done': seq<Name>, ghost subs': seq<Trace>, ghost tr: Trace)
    requires Wf(t) && id in t.nodes && IsFolderKind(t.nodes[id].kind) && fuel > 0 && below == fuel - 1
    requires Lists(names, Folders.HandlerNames(t.nodes[id].folder))
    requires rest != [] && done + rest == names && |subs| == |done|
    requires Visited(t, tree, id, order)
    requires RunSteps(Look, t, id, below, done, subs) == Some(Walk(tree, Ok(order)))
    ensures done' + rest[1..] == names && |subs'| == |done'| && |done'| == |done| + 1
    ensures next.result.Ok? ==> Visited(t, next.tree, id, next.result.value) && |next.result.value| > |order|
    ensures next.result.Ok? ==> RunSteps(Look, t, id, below, done', subs') == Some(next)
    ensures next.result.Err? ==> Run(Look, t, id, fuel, tr) == Some(next) && Wf(next.tree) && Grows(t, next.tree)
    decreases below, 3
  {
    ghost var subTr;
    next, subTr := WalkName(t, id, below, tree, order, done, subs, rest[0]);
    Shift(done, rest);
    done', subs' := done + [rest[0]], subs + [subTr];
    if next.result.Err? {
      tr := CompleteAfterError(Look, t, id, fuel, below, names, done', subs', rest[1..]);
    } else {
      tr := Trace([], []);
    }
  }

  /** One turn of a traversal: the walk so far, extended by the walk of
      `name` or ended by its error. */
  method WalkName(t: Tree, id: HandlerId, below: nat, tree: Tree, order: seq<HandlerId>,
                  ghost done: seq<Name>, ghost subs: seq<Trace>, name: Name) returns (next: Walk, ghost subTr: Trace)
    requires Visited(t, tree, id, order) && |subs| == |done|
    requires RunSteps(Look, t, id, below, done, subs) == Some(Walk(tree, Ok(order)))
    ensures RunSteps(Look, t, id, below, done + [name], subs + [subTr]) == Some(next)
    ensures Wf(next.tree) && Grows(t, next.tree)
    ensures next.result.Ok? ==> Visited(t, next.tree, id, next.result.value) && |next.result.value| > |order|
    decreases below, 2
  {
    var sub;
    sub, subTr := Visit(tree, id, name, below);
    RunStepsSnoc(Look, t, id, below, done, subs, name, subTr, Walk(tree, Ok(order)), sub);
    GrowsTrans(t, tree, sub.tree);
    if sub.result.Err? {
      return sub, subTr;
    }
    VisitedStep(t, tree, id, order, sub);
    next := Walk(sub.tree, Ok(order + sub.result.value));
  }

  lemma Shift(done: seq<Name>, rest: seq<Name>)
    requires rest != []
    ensures (done + [rest[0]]) + rest[1..] == done + rest
  {
    assert rest == [rest[0]] + rest[1..];
  }

  /** One name of a traversed folder: the handler it names, walked with
      the fuel `below`. */
  method Visit(t: Tree, id: HandlerId, name: Name, below: nat) returns (w: Walk, ghost sub: Trace)
    requires Wf(t) && id in t.nodes
    ensures VisitRun(Look, t, id, name, below, sub) == Some(w)
    ensures Wf(w.tree) && Grows(t, w.tree)
    ensures w.result.Ok? ==> |w.result.value| >= 1
    ensures w.result.Ok? ==> forall i :: 0 <= i < |w.result.value| ==> w.result.value[i] in w.tree.nodes
    decreases below, 1
  {
    var l := GetHandler(t, id, [name]);
    if l.result.Err? {
      VisitRunUnfolds(t, id, name, below, Trace([], []));
      return Walk(l.tree, Err(l.result.error)), Trace([], []);
    }
    w, sub := Traverse(l.tree, l.result.value, below);
    VisitRunUnfolds(t, id, name, below, sub);
    GrowsTrans(t, l.tree, w.tree);
  }

  /** A walk of fewer names is a prefix of the walk of more. */
  lemma {:induction false} StepsExtend(look: (Tree, HandlerId, Name) -> Lookup, t: Tree, id: HandlerId, below: nat, names: seq<Name>, subs: seq<Trace>, j: nat)
    requires |subs| == |names| && j <= |names|
    requires RunSteps(look, t, id, below, names, subs).Some? && RunSteps(look, t, id, below, names, subs).value.result.Ok?
    ensures RunSteps(look, t, id, below, names[..j], subs[..j]).Some?
    ensures RunSteps(look, t, id, below, names[..j], subs[..j]).value.result.Ok?
    ensures RunSteps(look, t, id, below, names[..j], subs[..j]).value.result.value
            <= RunSteps(look, t, id, below, names, subs).value.result.value
    decreases |names|
  {
    if j == |names| {
      assert names[..j] == names && subs[..j] == subs;
    } else {
      var k := |names| - 1;
      StepsExtend(look, t, id, below, names[..k], subs[..k], j);
      assert names[..k][..j] == names[..j] && subs[..k][..j] == subs[..j];
    }
  }

  /** Every visible name of a traversed folder gets a turn, in the order
      `tr` lists them, and the handler `get_handler(name)` returns at that
      turn is among the handlers the traversal yields. `below` is the fuel
      each name is walked with. */
  lemma {:induction false} TurnYieldsHandler(look: (Tree, HandlerId, Name) -> Lookup, t: Tree, id: HandlerId, fuel: nat, below: nat, tr: Trace, k: nat)
    requires id in t.nodes && IsFolderKind(t.nodes[id].kind) && fuel > 0 && below == fuel - 1
    requires Run(look, t, id, fuel, tr).Some? && Run(look, t, id, fuel, tr).value.result.Ok?
    requires k < |tr.names|
    ensures |tr.subs| == |tr.names| && |tr.names| == |Folders.HandlerNames(t.nodes[id].folder)|
    ensures tr.names[k] in Folders.HandlerNames(t.nodes[id].folder)
    ensures RunSteps(look, t, id, below, tr.names[..k], tr.subs[..k]).Some?
    ensures RunSteps(look, t, id, below, tr.names[..k], tr.subs[..k]).value.result.Ok?
    ensures look(RunSteps(look, t, id, below, tr.names[..k], tr.subs[..k]).value.tree, id, tr.names[k]).result.Ok?
    ensures look(RunSteps(look, t, id, below, tr.names[..k], tr.subs[..k]).value.tree, id, tr.names[k]).result.value
            in Run(look, t, id, fuel, tr).value.result.value
  {
    var names, subs := tr.names, tr.subs;
    assert |multiset(names)| == |multiset(Folders.HandlerNames(t.nodes[id].folder))|;
    assert names[k] in multiset(names);
    RunFolder(look, t, id, fuel, below, names, subs);
    StepYieldsHandler(look, t, id, below, names, subs, k);
  }

  /** Every visible name of a traversed folder has a turn in the trace:
      together with `TurnYieldsHandler`, the handler each visible name
      resolves to at its turn is among those the traversal yields. */
  lemma VisibleNameHasTurn(look: (Tree, HandlerId, Name) -> Lookup, t: Tree, id: HandlerId, fuel: nat, tr: Trace, name: Name)
    returns (k: nat)
    requires id in t.nodes && IsFolderKind(t.nodes[id].kind) && fuel > 0
    requires Run(look, t, id, fuel, tr).Some?
    requires name in Folders.HandlerNames(t.nodes[id].folder)
    ensures k < |tr.names| && tr.names[k] == name
  {
    assert Lists(tr.names, Folders.HandlerNames(t.nodes[id].folder));
    assert name in multiset(tr.names);
    k :| 0 <= k < |tr.names| && tr.names[k] == name;
  }

  /** The same, for the walk of a list of names: the handler the k-th name
      resolves to, in the tree the first k names left, is yielded. */
  lemma {:induction false} StepYieldsHandler(look: (Tree, HandlerId, Name) -> Lookup, t: Tree, id: HandlerId, below: nat, names: seq<Name>, subs: seq<Trace>, k: nat)
    requires |subs| == |names| && k < |names|
    requires RunSteps(look, t, id, below, names, subs).Some? && RunSteps(look, t, id, below, names, subs).value.result.Ok?
    ensures RunSteps(look, t, id, below, names[..k], subs[..k]).Some?
    ensures RunSteps(look, t, id, below, names[..k], subs[..k]).value.result.Ok?
    ensures look(RunSteps(look, t, id, below, names[..k], subs[..k]).value.tree, id, names[k]).result.Ok?
    ensures look(RunSteps(look, t, id, below, names[..k], subs[..k]).value.tree, id, names[k]).result.value
            in RunSteps(look, t, id, below, names, subs).value.result.value
  {
    StepsExtend(look, t, id, below, names, subs, k + 1);
    assert names[..k + 1][..k] == names[..k] && subs[..k + 1][..k] == subs[..k];
    RunStepsLast(look, t, id, below, names[..k + 1], subs[..k + 1]);
    var before := RunSteps(look, t, id, below, names[..k], subs[..k]).value;
    var sub := VisitRun(look, before.tree, id, names[k], below, subs[k]).value;
    var upto := before.result.value + sub.result.value;
    assert upto[|before.result.value|] == sub.result.value[0];
  }
}

=== FILE: web.dfy ===
/** The publishing side of the web layer: objects reachable from a node by
    path, the names below an object, and the access-control object that
    governs a node.

    Nodes live in an arena and link to their parent; depth strictly grows
    from parent to child, so climbing terminates. What `_get_object` and
    `_get_names` answer is left to the subclasses in the source; here each
    node carries a table of named children standing in for them.
 */
module Web {
  import opened Wrappers

  type NodeId = nat
  type Name = string

  /** `Root` is an `AccessControl`; other nodes may be. */
  datatype NodeKind = RootNode | AccessControlNode | PlainNode

  predicate IsAccessControl(k: NodeKind) {
    k == RootNode || k == AccessControlNode
  }

  datatype WebNode = WebNode(kind: NodeKind, parent: Option<NodeId>, depth: nat, children: map<Name, NodeId>)

  type Site = map<NodeId, WebNode>

  ghost predicate ParentOk(s: Site, id: NodeId)
    requires id in s
  {
    match s[id].parent
    case None => true
    case Some(p) => p in s && s[p].depth < s[id].depth
  }

  ghost predicate ChildrenOk(s: Site, id: NodeId)
    requires id in s
  {
    forall n :: n in s[id].children ==> s[id].children[n] in s
  }

  ghost predicate Wf(s: Site) {
    forall id :: id in s ==> ParentOk(s, id) && ChildrenOk(s, id)
  }

  /** A path: absolute or relative, and its segments. */
  datatype WebPath = WebPath(absolute: bool, segments: seq<Name>)

  /** The node and its ancestors, nearest first; the last is the root. */
  ghost function Ancestors(s: Site, id: NodeId): (c: seq<NodeId>)
    requires Wf(s) && id in s
    ensures |c| >= 1 && c[0] == id
    ensures forall i :: 0 <= i < |c| ==> c[i] in s
    ensures s[c[|c| - 1]].parent.None?
    decreases s[id].depth
  {
    match s[id].parent
    case None => [id]
    case Some(p) =>
      assert ParentOk(s, id);
      [id] + Ancestors(s, p)
  }

  /** `get_root()`: the end of the parent chain. */
  function GetRoot(s: Site, id: NodeId): (r: NodeId)
    requires Wf(s) && id in s
    ensures r in s && s[r].parent.None?
    ensures r == Ancestors(s, id)[|Ancestors(s, id)| - 1]
    decreases s[id].depth
  {
    match s[id].parent
    case None => id
    case Some(p) =>
      assert ParentOk(s, id);
      GetRoot(s, p)
  }

  /** `k` steps up the parent chain; stepping above the root leaves nothing
      to continue from. */
  function Climb(s: Site, id: NodeId, k: nat): (r: Result<NodeId>)
    requires Wf(s) && id in s
    ensures r.Ok? <==> k < |Ancestors(s, id)|
    ensures r.Ok? ==> r.value == Ancestors(s, id)[k]
    ensures r.Err? ==> r.error == AttributeError
    decreases k
  {
    if k == 0 then Ok(id)
    else
      match s[id].parent
      case None => Err(AttributeError)
      case Some(p) =>
        assert ParentOk(s, id);
        Climb(s, p, k - 1)
  }

  /** The segments after the leading `..`s, each through `_get_object`. */
  function Descend(s: Site, id: NodeId, names: seq<Name>): (r: Result<NodeId>)
    requires Wf(s) && id in s
    ensures r.Ok? ==> r.value in s
    ensures r.Err? ==> r.error == LookupError
    decreases |names|
  {
    if |names| == 0 then Ok(id)
    else if names[0] !in s[id].children then Err(LookupError)
    else
      assert ChildrenOk(s, id);
      Descend(s, s[id].children[names[0]], names[1..])
  }

  /** Segments are resolved strictly left to right. */
  lemma {:induction false} DescendComposes(s: Site, id: NodeId, xs: seq<Name>, ys: seq<Name>)
    requires Wf(s) && id in s
    ensures Descend(s, id, xs + ys) == match Descend(s, id, xs)
                                       case Err(e) => Err(e)
                                       case Ok(m) => Descend(s, m, ys)
    decreases |xs|
  {
    if |xs| == 0 {
      assert xs + ys == ys;
    } else {
      assert (xs + ys)[0] == xs[0] && (xs + ys)[1..] == xs[1..] + ys;
      if xs[0] in s[id].children {
        assert ChildrenOk(s, id);
        DescendComposes(s, s[id].children[xs[0]], xs[1..], ys);
      }
    }
  }

  /** How many segments at the head of the path are `..`. */
  function LeadingDots(names: seq<Name>): (k: nat)
    ensures k <= |names|
    ensures forall i :: 0 <= i < k ==> names[i] == ".."
    ensures k < |names| ==> names[k] != ".."
    decreases |names|
  {
    if |names| > 0 && names[0] == ".." then 1 + LeadingDots(names[1..]) else 0
  }

  function Start(s: Site, id: NodeId, p: WebPath): (here: NodeId)
    requires Wf(s) && id in s
    ensures here in s
  {
    if p.absolute then GetRoot(s, id) else id
  }

  /** `get_object(path)` as written: the `while path[0] == '..'` loop reads
      past the end of a path made only of `..`s (IndexError), and a walk
      above the root continues from nothing (AttributeError). */
  function GetObjectAsWritten(s: Site, id: NodeId, p: WebPath): (r: Result<NodeId>)
    requires Wf(s) && id in s
    ensures r.Ok? ==> r.value in s
  {
    var here := Start(s, id, p);
    if |p.segments| == 0 then Ok(here) else DotsAsWritten(s, Some(here), p.segments)
  }

  /** The `..` loop as written, from `here` (None once above the root). */
  function DotsAsWritten(s: Site, here: Option<NodeId>, names: seq<Name>): (r: Result<NodeId>)
    requires Wf(s) && (here.Some? ==> here.value in s)
    ensures r.Ok? ==> r.value in s && |names| > 0
    ensures (forall i :: 0 <= i < |names| ==> names[i] == "..") ==> r.Err?
    decreases |names|
  {
    if |names| == 0 then Err(IndexError)
    else if names[0] == ".." then
      match here
      case None => Err(AttributeError)
      case Some(h) =>
        assert ParentOk(s, h);
        DotsAsWritten(s, s[h].parent, names[1..])
    else
      match here
      case None => Err(AttributeError)
      case Some(h) => Descend(s, h, names)
  }

  /** `get_object(path)`, with the `..` loop stopping at the end of the
      path: the start node (the root for an absolute path), then one step
      up per leading `..`, then each remaining segment in turn. */
  function GetObject(s: Site, id: NodeId, p: WebPath): (r: Result<NodeId>)
    requires Wf(s) && id in s
    ensures r.Ok? ==> r.value in s
    ensures |p.segments| == 0 ==> r == Ok(Start(s, id, p))
    ensures var k := LeadingDots(p.segments);
            k >= |Ancestors(s, Start(s, id, p))| ==> r == Err(AttributeError)
    ensures var k := LeadingDots(p.segments);
            k < |Ancestors(s, Start(s, id, p))| ==>
              r == Descend(s, Ancestors(s, Start(s, id, p))[k], p.segments[k..])
  {
    var here := Start(s, id, p);
    if |p.segments| == 0 then Ok(here)
    else
      var k := LeadingDots(p.segments);
      match Climb(s, here, k)
      case Err(e) => Err(e)
      case Ok(a) => Descend(s, a, p.segments[k..])
  }

  /** A relative path of `k` `..`s is the `k`-th ancestor. */
  lemma DotsReachAncestor(s: Site, id: NodeId, k: nat)
    requires Wf(s) && id in s && k < |Ancestors(s, id)|
    ensures GetObject(s, id, WebPath(false, seq(k, _ => ".."))) == Ok(Ancestors(s, id)[k])
  {
    var dots: seq<Name> := seq(k, _ => "..");
    assert LeadingDots(dots) == k;
    assert dots[k..] == [];
  }

  /** Each leading `..` is one step up the parent chain. */
  lemma DotDotStepsUp(s: Site, id: NodeId, rest: seq<Name>)
    requires Wf(s) && id in s && s[id].parent.Some?
    ensures s[id].parent.value in s
    ensures GetObject(s, id, WebPath(false, [".."] + rest)) == GetObject(s, s[id].parent.value, WebPath(false, rest))
  {
    assert ParentOk(s, id);
    var p := s[id].parent.value;
    var names := [".."] + rest;
    assert names[1..] == rest;
    assert LeadingDots(names) == 1 + LeadingDots(rest);
    assert Ancestors(s, id) == [id] + Ancestors(s, p);
    assert names[LeadingDots(names)..] == rest[LeadingDots(rest)..];
  }

  /** The defect: a path of only `..`s fails with IndexError, where its
      evident meaning is the ancestor it names. */
  lemma ParentPathFails(s: Site, id: NodeId)
    requires Wf(s) && id in s && s[id].parent.Some?
    ensures GetObjectAsWritten(s, id, WebPath(false, [".."])) == Err(IndexError)
    ensures GetObject(s, id, WebPath(false, [".."])) == Ok(s[id].parent.value)
  {
    assert ParentOk(s, id);
    assert [".."][1..] == [];
    DotDotStepsUp(s, id, []);
  }

  /** The loop as written agrees with the corrected one from `here` whenever
      a segment other than `..` follows the leading ones. */
  lemma {:induction false} DotsAsWrittenAgree(s: Site, h: NodeId, names: seq<Name>)
    requires Wf(s) && h in s && LeadingDots(names) < |names|
    ensures DotsAsWritten(s, Some(h), names) == match Climb(s, h, LeadingDots(names))
                                                case Err(e) => Err(e)
                                                case Ok(a) => Descend(s, a, names[LeadingDots(names)..])
    decreases |names|
  {
    if names[0] == ".." {
      assert ParentOk(s, h);
      match s[h].parent
      case None =>
        assert LeadingDots(names) == 1 + LeadingDots(names[1..]);
        assert LeadingDots(names[1..]) < |names[1..]|;
        assert names[1..][LeadingDots(names[1..])] != "..";
      case Some(p) =>
        assert LeadingDots(names) == 1 + LeadingDots(names[1..]);
        DotsAsWrittenAgree(s, p, names[1..]);
        assert names[LeadingDots(names)..] == names[1..][LeadingDots(names[1..])..];
    }
  }

  /** The two readings of `get_object` differ only on paths made entirely
      of `..`s. */
  lemma GetObjectAgrees(s: Site, id: NodeId, p: WebPath)
    requires Wf(s) && id in s
    requires LeadingDots(p.segments) < |p.segments| || |p.segments| == 0
    ensures GetObjectAsWritten(s, id, p) == GetObject(s, id, p)
  {
    if |p.segments| > 0 {
      DotsAsWrittenAgree(s, Start(s, id, p), p.segments);
    }
  }

  /** `get_names(path)`: the names below the object the path leads to. */
  function GetNames(s: Site, id: NodeId, p: WebPath): (r: Result<set<Name>>)
    requires Wf(s) && id in s
    ensures r.Ok? <==> GetObject(s, id, p).Ok?
    ensures r.Ok? ==> r.value == s[GetObject(s, id, p).value].children.Keys
    ensures r.Err? ==> r.error == GetObject(s, id, p).error
  {
    var o :- GetObject(s, id, p);
    Ok(s[o].children.Keys)
  }

  /** `get_access_control()`: the first access-control node on the way from
      this node up to the root, if any. */
  method GetAccessControl(s: Site, id: NodeId) returns (r: Option<NodeId>)
    requires Wf(s) && id in s
    ensures r.None? <==> forall i :: 0 <= i < |Ancestors(s, id)| ==> !IsAccessControl(s[Ancestors(s, id)[i]].kind)
    ensures r.Some? ==> exists i :: 0 <= i < |Ancestors(s, id)| && Ancestors(s, id)[i] == r.value
                          && IsAccessControl(s[r.value].kind)
                          && forall j :: 0 <= j < i ==> !IsAccessControl(s[Ancestors(s, id)[j]].kind)
    ensures (exists i :: 0 <= i < |Ancestors(s, id)| && s[Ancestors(s, id)[i]].kind == RootNode) ==> r.Some?
  {
    ghost var chain := Ancestors(s, id);
    var node: Option<NodeId> := Some(id);
    ghost var k := 0;
    while node.Some?
      invariant 0 <= k <= |chain|
      invariant node.Some? ==> node.value in s && k < |chain| && chain[k..] == Ancestors(s, node.value)
      invariant node.None? ==> k == |chain|
      invariant forall j :: 0 <= j < k ==> !IsAccessControl(s[chain[j]].kind)
      decreases if node.Some? then s[node.value].depth + 1 else 0
    {
      var n := node.value;
      assert chain[k] == n;
      if IsAccessControl(s[n].kind) {
        return node;
      }
      assert ParentOk(s, n);
      if s[n].parent.Some? {
        assert chain[k + 1..] == Ancestors(s, n)[1..];
      } else {
        assert |Ancestors(s, n)| == 1;
      }
      node := s[n].parent;
      k := k + 1;
    }
    return None;
  }
}

=== FILE: wrappers.dfy ===
/** Failure-carrying datatypes shared by every module of the model.

    The source signals failures with Python exceptions; each exception class
    the core raises (or lets escape) becomes one constructor of `Error`.
 */
module Wrappers {

  datatype Option<+T> = None | Some(value: T)

  /** The exception kinds the core raises or lets escape. */
  datatype Error =
    | LookupError     // a name or path that does not resolve, or a duplicate insert
    | ValueError      // ascending past the root, duplicate element schemas
    | XmlError        // unknown element or attribute in a namespace schema
    | KeyError        // `del d[k]` on a missing key
    | IndexError      // indexing an empty path
    | AttributeError  // an attribute read on `None` or a method a class does not have
    | ParseError      // malformed serialized state
    | ResourceError   // the backing store has no such resource
    | Busy            // the transaction lock is already held

  datatype Result<+T> = Ok(value: T) | Err(error: Error) {
    predicate IsFailure() {
      Err?
    }

    function PropagateFailure<U>(): Result<U>
      requires Err?
    {
      Err(error)
    }

    function Extract(): T
      requires Ok?
    {
      value
    }
  }
}
